=== FILE: README.md ===
# BooksEdu backend: a Dafny model of its routers and access policy

BooksEdu is a FastAPI service that keeps, per university, its directions of study,
kafedras (departments), subjects and the literature assigned to subjects, together with
university news, two kinds of accounts (admins with the roles `owner` and `superadmin`,
and registered users with the role `user`), JWT login, and an Excel export of literature
availability. This project models the request handlers of that service as operations on
an in-memory store and proves what they promise.

- **Store** (`store.dfy`): one record datatype per table. The class `Db` holds one
  `map<int, Record>` field per table and a key counter. Handlers are methods that
  name in `modifies` exactly the tables they write. A partial update is a patch
  datatype with one `Option` per field. A nullable column takes `Option<Option<T>>`, so an
  explicit null clears it.
- **Roles and scope** (`common.dfy`, `policy.dfy`): a stored role string is read into
  `Owner`, `Superadmin`, `PlainUser` or `Other(name)`. `CreateScope` says which university
  a new row is filed under. A superadmin always gets their own university. An owner must
  send a non-zero one (400). Anyone else gets 403. `WriteAccess` orders the guards of an
  update or delete: 404 when the row is missing, then 403 for a superadmin whose
  university is not the one stored on the row, then 403 for anyone but owner and
  superadmin.
- **Dependencies** (`dependencies.dfy`): the bearer token is resolved to an account. The
  admin table is searched first, then the user table. The role guards are modelled too.
- **Routers**: universities, directions, kafedras, subjects (bulk create of up to ten,
  all or nothing), literature (including the download guard), news (tag normalisation,
  get-or-create of tags, newest-first listing filtered by tag), admins, the current
  user's profile, and auth (register, create-admin, login, refresh).
- **Statistics** (`statistics.dfy`): the export builds one sheet per university the
  caller may see. Each sheet has one 15-cell row per (direction, subject, literature)
  triple, in load order. Its availability percentage is
  `min(trunc(600·K/T), 100)`, where K is the printed count and T the student count.
  Literature with an electronic file is always 100. In the first five columns, every
  maximal run of two or more equal cells is merged. The merge scan is an imperative loop
  over two arrays. It is proved to produce exactly the maximal runs.

Error responses are the `Status` values `BadRequest` (400), `Unauthorized` (401),
`Forbidden` (403), `NotFound` (404) and `InternalError` (500). `InternalError` stands for
a database integrity error the handler does not catch, or a missing token claim.

Behaviour the model follows from the code:
- Within one bulk subject request, the session flushes the rows it has added before
  each lookup. A later item therefore sees the subjects accepted before it, and a batch
  cannot repeat a name within one university.
- `direction_ids` in a subject update is assigned to an attribute the mapping does not
  persist. The stored links stay as they were.
- `course` on directions is unique across all universities, and `name` on universities is
  unique. A clash that passes the handler's own checks is a 500.
- News update accepts any authenticated caller. News delete refuses only a superadmin of
  another university.
- The admin router (`/admins`) has no authentication.
- `update_me` on an admin account stores nothing, because the admin table has no name
  columns.
- The export names each sheet after its university and writes the rows through openpyxl.
  openpyxl refuses some names as titles and some control characters in cell text. The
  handler does not catch either error, so the export is a 500.

## Model

| member | source | states |
|---|---|---|
| Common.RoleOf | app/models/admin.py:12 | reading a stored role string yields a role whose name is that string |
| Common.RoleNameRoundTrip | app/dependencies.py:68-70 | role names encode roles faithfully: reading back a role's name gives the same role |
| Store.Db.NewId | app/models/subject.py:16 | a new primary key is one that no table uses yet |
| Policy.CreateScope | app/routers/direction.py:28-39 | a superadmin's row goes under their own university; an owner's under the sent one, 400 when it is missing or zero; anyone else 403 |
| Policy.WriteAccess | app/routers/kafedra.py:54-62 | an update or delete proceeds exactly for an existing row and an owner, or a superadmin whose university is the row's; 404 before 403 |
| Dependencies.AccountByEmail | app/dependencies.py:14-21 | the lookup finds an account exactly when either table has the email, and an admin row wins over a user row |
| Dependencies.CurrentUser | app/dependencies.py:24-45 | 401 for an undecodable token, a token without `sub`, or an unknown email; otherwise the account the lookup resolves the `sub` email to |
| Dependencies.RequireRole | app/dependencies.py:48-56 | the guard passes exactly when the caller's role string is in the list, else 403 |
| Dependencies.RequireRoleText | app/routers/auth.py:64 | given one string, the same guard passes exactly when the role string is a substring of it |
| Dependencies.RequireOwnerOrSuperadmin | app/dependencies.py:58-66 | passes exactly for owner and superadmin, else 403 |
| Dependencies.RequireUserAdmitsKnownRoles | app/dependencies.py:68 | `require_user` admits exactly the three known roles |
| Dependencies.RequireSuperadminAgrees | app/dependencies.py:58-69 | `require_superadmin` and `require_owner_or_superadmin` admit the same callers |
| Dependencies.RequireOwnerAdmitsOnlyOwner | app/dependencies.py:70 | `require_owner` admits the owner and nobody else |
| Dependencies.OwnerTextAdmitsOtherRoles | app/routers/auth.py:64 | the string form of the owner guard admits an admin whose stored role is "own" |
| Dependencies.OwnerTextRefusesOthers | app/routers/auth.py:64 | the string form still refuses superadmins and users, so among the three known roles only the owner passes |
| Dependencies.OwnerTextAdmitsOwner | app/routers/auth.py:64 | the string form admits every owner |
| AuthRouter.RegisterShadowsAdminAsWritten | app/routers/auth.py:37-40 | with the user-table-only check, an owner's email can be registered; login then finds the new user while the session lookup finds the owner |
| AuthRouter.RegisterKeepsLookupsAgreeing | app/routers/auth.py:34-53 | with the check over both tables, login and the session lookup both resolve the new email to the new user and nothing else |
| AuthRouter.RegisterAsWritten | app/routers/auth.py:34-53 | as written: 400 exactly when the user table has the email; otherwise exactly one new user row with role user, no university and the hashed password |
| AuthRouter.Register | app/routers/auth.py:34-53 | corrected (see Findings): 400 exactly when either account table has the email; otherwise exactly one new user row with role user, no university and the hashed password |
| AuthRouter.CreateAdminAsWritten | app/routers/auth.py:60-80 | as written: a caller whose role string occurs inside "owner" adds a superadmin bound to the given university (403 otherwise); a duplicate admin email is 500; nothing else changes |
| AuthRouter.CreateAdmin | app/routers/auth.py:60-80 | corrected (see Findings): only an owner (403 otherwise) adds a superadmin bound to the given university; a duplicate admin email is 500; nothing else changes |
| AuthRouter.Login | app/routers/auth.py:86-105 | 400 unless the account found (users first, then admins) verifies the password; on success both tokens are issued from that account's email, role and id |
| AuthRouter.Refresh | app/routers/auth.py:107-131 | 401 for an undecodable token or a type other than refresh; 500 when a claim is missing; otherwise a new pair from the same claims |
| AuthRouter.RefreshReissuesPair | app/routers/auth.py:107-131 | refreshing a pair's refresh token reissues exactly that pair |
| AuthRouter.AccessTokenCannotRefresh | app/routers/auth.py:111-112 | an access token is refused by the refresh endpoint with 401 |
| UniversityRouter.GetUniversity | app/routers/university.py:20-28 | the stored university, or 404 when the id is unknown |
| UniversityRouter.CreateUniversity | app/routers/university.py:31-45 | only an owner creates (403); a name already in the table is 500; otherwise one new row with the sent fields; names stay unique |
| UniversityRouter.UpdateUniversity | app/routers/university.py:48-68 | role 403 before 404 before scope 403; a name held by another university is 500; otherwise exactly the sent fields change; names stay unique |
| UniversityRouter.DeleteUniversity | app/routers/university.py:71-86 | only an owner deletes (403 before 404); exactly that row is removed |
| DirectionRouter.CreateDirection | app/routers/direction.py:21-59 | scope errors first; 400 when the university already has the course; 500 when another university has it; otherwise one new row under the scoped university; courses stay unique |
| DirectionRouter.UpdateDirection | app/routers/direction.py:62-87 | the `WriteAccess` verdict decides; a course held by another direction is 500; otherwise exactly the sent fields change; courses stay unique |
| DirectionRouter.DeleteDirection | app/routers/direction.py:90-110 | the `WriteAccess` verdict decides; on success exactly that row is removed |
| KafedraRouter.CreateKafedra | app/routers/kafedra.py:22-44 | scope errors, otherwise one new row under the scoped university |
| KafedraRouter.UpdateKafedra | app/routers/kafedra.py:47-69 | the `WriteAccess` verdict decides; on success exactly the sent fields change |
| KafedraRouter.DeleteKafedra | app/routers/kafedra.py:72-93 | the `WriteAccess` verdict decides; on success exactly that row is removed |
| SubjectRouter.MatchedAppend | app/routers/subject.py:45-51 | one more listed id adds it to the lookup result exactly when it is a direction of the university |
| SubjectRouter.ValidAppend | app/routers/subject.py:45-52 | one more listed id keeps the list valid exactly when it is a new direction of the university |
| SubjectRouter.MatchedCountIsLength | app/routers/subject.py:45-56 | the count comparison passes exactly for lists of distinct directions of the item's university |
| SubjectRouter.MatchedCountStep | app/routers/subject.py:45-56 | the count comparison stays exact when one more id is listed |
| SubjectRouter.CheckItem | app/routers/subject.py:32-75 | scope (400/403), then directions (404), then the name against stored and earlier batch subjects (400); on success the subject to store |
| SubjectRouter.CheckFrom | app/routers/subject.py:32-77 | a successful pass keeps the subjects accepted so far and adds one per item |
| SubjectRouter.CheckFromItems | app/routers/subject.py:32-77 | a successful pass accepted every item against the subjects accepted before it |
| SubjectRouter.FirstFailureDecides | app/routers/subject.py:32-68 | a failed pass failed at an item all earlier items passed, and that item's error is the response |
| SubjectRouter.CheckedBatchIsFresh | app/routers/subject.py:58-68 | no accepted subject repeats the name and university of a stored subject or an earlier one in the batch |
| SubjectRouter.CheckAll | app/routers/subject.py:32-77 | the item loop computes the checking pass |
| SubjectRouter.InsertAll | app/routers/subject.py:70-79 | each accepted subject is stored under its own new id, in order, and no other row changes |
| SubjectRouter.InsertKeepsNamesUnique | app/routers/subject.py:58-79 | storing a fresh batch keeps name and university unique together |
| SubjectRouter.CreateSubjectsBulk | app/routers/subject.py:21-83 | more than ten items is 400; otherwise all items are stored or none, the first failing item's error is the response, and name-within-university uniqueness is kept |
| SubjectRouter.UpdateSubject | app/routers/subject.py:87-108 | the `WriteAccess` verdict decides; on success the sent fields change and the direction links do not |
| SubjectRouter.DeleteSubject | app/routers/subject.py:112-129 | the `WriteAccess` verdict decides; on success exactly that row is removed |
| LiteratureRouter.CreateLiterature | app/routers/literature.py:23-43 | a superadmin creates under their own university; an owner always gets 400, since the payload has no university field; anyone else 403 |
| LiteratureRouter.UpdateLiterature | app/routers/literature.py:49-70 | the `WriteAccess` verdict decides; on success exactly the sent fields change |
| LiteratureRouter.DeleteLiterature | app/routers/literature.py:74-91 | the `WriteAccess` verdict decides; on success exactly that row is removed |
| LiteratureRouter.DownloadAccess | app/routers/literature.py:94-116 | 404 without a row or a file path; then 403 unless owner or the superadmin of the row's university; otherwise the stored path |
| NewsRouter.LowerChar | app/routers/news.py:57 | an upper-case ASCII letter becomes its lower-case letter, 32 code points on; every other character is kept |
| NewsRouter.Lower | app/routers/news.py:57 | lower-casing maps every character and keeps the length |
| NewsRouter.LeadingSpaces | app/routers/news.py:57 | the length of the leading whitespace run: every character before it is whitespace, the one at it is not |
| NewsRouter.TrailingSpaces | app/routers/news.py:57 | the length of the trailing whitespace run: every character after the rest is whitespace, the one before it is not |
| NewsRouter.StripLeft | app/routers/news.py:57 | the result is the suffix of the input after a run of whitespace, and does not start with whitespace |
| NewsRouter.StripRight | app/routers/news.py:57 | the result is the prefix of the input before a run of whitespace, and does not end with whitespace |
| NewsRouter.Strip | app/routers/news.py:57 | the result is the slice of the input that starts after the leading whitespace and is followed only by whitespace; it has whitespace at neither end |
| NewsRouter.LowerFixed | app/routers/news.py:57 | text without upper-case letters is its own lower case |
| NewsRouter.StripFixed | app/routers/news.py:57 | text without whitespace at its ends is its own strip |
| NewsRouter.NormalizeIdempotent | app/routers/news.py:57 | normalising a tag name twice is normalising it once |
| NewsRouter.UnstrippedQueryNeverMatches | app/routers/news.py:82 | a tag filter starting with whitespace is lower-cased but not stripped, so it matches no stored tag name |
| NewsRouter.FindTag | app/routers/news.py:58-59 | finds a tag row with the name, or reports that none exists |
| NewsRouter.GetOrCreateTag | app/routers/news.py:57-62 | returns a tag with the name, reusing an existing one and adding at most that one; existing tags are kept and names stay unique |
| NewsRouter.GetOrCreateTags | app/routers/news.py:54-65 | one tag per sent name, named by its normalised form; existing tags are kept and reused, and names stay unique |
| NewsRouter.CreateNews | app/routers/news.py:18-71 | scope errors leave everything unchanged; otherwise one new news row with the sent title and text, the scoped university, the upload path, the current date and the normalised tags in order; an existing tag of that name is reused, new tags are only ones the row links to, tag names stay unique, and without tags the tag table is unchanged |
| NewsRouter.UpdateNews | app/routers/news.py:89-135 | 404 for an unknown id; otherwise the sent title, text and image replace the old ones, and a sent tag list replaces the links, reusing existing tags, adding only linked ones and keeping names unique; without a tag list the links and the tag table are unchanged |
| NewsRouter.DeleteNews | app/routers/news.py:138-156 | 404 for an unknown id; 403 only for a superadmin of another university; otherwise exactly that row is removed |
| NewsRouter.ConsNewestFirst | app/routers/news.py:79 | putting a newest item in front of a newest-first list keeps it newest-first |
| NewsRouter.ConsDistinct | app/routers/news.py:85 | putting a new id in front of a list without repeats keeps it without repeats |
| NewsRouter.InsertByDate | app/routers/news.py:79 | inserting an id into a newest-first list gives a newest-first list with the same ids plus that one, without repeats |
| NewsRouter.ListNews | app/routers/news.py:74-85 | lists exactly the news carrying the lower-cased tag (all news without a filter), each once, newest first |
| AdminRouter.PatchAdmin | app/routers/admin.py:53-60 | only the sent fields change; a sent password is stored hashed; a sent role is stored as sent |
| AdminRouter.CreateAdmin | app/routers/admin.py:13-25 | a duplicate email is 500; otherwise one new admin row with the sent email, role string and university and the hashed password |
| AdminRouter.GetAdmin | app/routers/admin.py:36-42 | the stored admin, or 404 |
| AdminRouter.UpdateAdmin | app/routers/admin.py:46-64 | 404 for an unknown id; an email held by another admin is 500; otherwise the patched row replaces the old one |
| AdminRouter.DeleteAdmin | app/routers/admin.py:68-77 | 404 for an unknown id; otherwise exactly that row is removed |
| AdminRouter.PatchKeepsEmailsUnique | app/models/admin.py:10 | a patch that passes the email check keeps admin emails unique |
| UserRouter.UpdateMe | app/routers/user.py:9-18 | 403 for a role outside the three known ones; for a user account both names of its stored row are replaced by the sent values; nothing else changes |
| Statistics.Selected | app/routers/statistics.py:26-47 | an owner sees every university, in load order; a superadmin only the one whose id is theirs |
| Statistics.TruncDiv | app/routers/statistics.py:84 | `int()` of a quotient truncates; on non-negative operands this is floor division |
| Statistics.PercentInRange | app/routers/statistics.py:78-84 | the percentage lies between 0 and 100 |
| Statistics.PercentZeroWithoutCopies | app/routers/statistics.py:78-84 | without a file and without printed copies the percentage is 0 |
| Statistics.PercentFullIffEnoughCopies | app/routers/statistics.py:78-84 | without a file the percentage is 100 exactly when six times the copies cover the students, a zero student count counting as one |
| Statistics.RowOf | app/routers/statistics.py:86-102 | a row has 15 cells: direction number, name, course, student count and subject name first, then the electronic status and the percentage |
| Statistics.LiteratureRows | app/routers/statistics.py:77-103 | one row per literature item |
| Statistics.SubjectRows | app/routers/statistics.py:76-103 | every row of a subject block is 15 cells wide |
| Statistics.DirectionRows | app/routers/statistics.py:75-103 | every row of the sheet is 15 cells wide |
| Statistics.LiteratureRowsStep | app/routers/statistics.py:77-103 | appending one more literature row extends the literature block by one item |
| Statistics.SubjectRowsStep | app/routers/statistics.py:76-103 | appending one more subject's rows extends the subject block by one subject |
| Statistics.DirectionRowsStep | app/routers/statistics.py:75-103 | appending one more direction's rows extends the sheet by one direction |
| Statistics.AppendLiteratureRows | app/routers/statistics.py:77-103 | the innermost loop appends the literature rows of one subject |
| Statistics.AppendSubjectRows | app/routers/statistics.py:76-103 | the middle loop appends the rows of one direction |
| Statistics.BuildRows | app/routers/statistics.py:74-103 | the nested loops produce the rows of every direction, subject and literature item in load order |
| Statistics.MergedRangesDisjoint | app/routers/statistics.py:111-136 | two different merged ranges of one column do not overlap |
| Statistics.RunStart | app/routers/statistics.py:114-126 | the start of the run of equal cells that ends at a row |
| Statistics.RunStartUnique | app/routers/statistics.py:114-126 | a run's start is determined by its cells |
| Statistics.ClosedRun | app/routers/statistics.py:116-126 | a changed value closes a range exactly when its run spans two rows or more |
| Statistics.ClosedRunFound | app/routers/statistics.py:116-126 | a merged range that ends before a changed value starts where the run of equal cells ending there starts |
| Statistics.ClosedRunMade | app/routers/statistics.py:116-126 | a run of two or more equal cells between two changes is a merged range |
| Statistics.FinalRun | app/routers/statistics.py:128-136 | the final pass merges exactly the last run when it spans two rows or more |
| Statistics.TrackedStep | app/routers/statistics.py:114-126 | one row of the scan keeps each column's current value and run start accurate |
| Statistics.ScanRow | app/routers/statistics.py:115-126 | after a row, the merges made are exactly the maximal runs that ended by then |
| Statistics.ScanCell | app/routers/statistics.py:116-126 | one cell of the scan closes the run of its column exactly when that run is a merged range, and touches no other column |
| Statistics.CloseRuns | app/routers/statistics.py:128-136 | after the final pass the merges are exactly the maximal runs |
| Statistics.MergeRanges | app/routers/statistics.py:111-136 | the merged ranges are exactly the maximal runs of two or more equal cells in columns 1 to 5 |
| Statistics.AppendRows | app/routers/statistics.py:105-108 | the append loop goes through every row exactly when openpyxl accepts every cell's text (no code point 0-8, 11, 12 or 14-31); otherwise it stops at the first refused row |
| Statistics.BuildSheet | app/routers/statistics.py:52-136 | 500 exactly when openpyxl refuses the name as a sheet title (empty for the first sheet, or holding one of `\ / * ? : [ ]`) or refuses the text of a cell; otherwise the sheet has the name as title, the headers, its rows and exactly the maximal-run merges |
| Statistics.AddSheet | app/routers/statistics.py:52-136 | one pass of the university loop either appends the next university's sheet, keeping every sheet so far that university's sheet, or ends the export with a 500 when that sheet is refused |
| Statistics.BuildSheets | app/routers/statistics.py:52-136 | 500 exactly when some university's sheet is refused; otherwise one such sheet per university, in order |
| Statistics.Export | app/routers/statistics.py:20-136 | 403 unless owner or superadmin; 500 exactly when a selected university's name is refused as a sheet title or a cell of its rows is refused; otherwise one sheet per selected university, with its name, the headers, its rows and exactly the maximal-run merges, and the default empty sheet when nothing is selected |

## Left out

- Statistics.AvailablePercent: the percentage is computed exactly as `trunc(600·K/T)`. The source computes `int((K*6/T)*100)` in double precision. Rounding can make that one less than the exact value: K = 29 and T = 600 give 28 in the source and 29 here.
- NewsRouter.Lower: only ASCII letters are lower-cased. Python's `str.lower` also lower-cases other Unicode letters.
- NewsRouter.Strip: only ASCII whitespace and the separators 28 to 31 are stripped. Python's `str.strip` also strips other Unicode whitespace.
- Statistics.RowOf: the contract names the first five cells and the last two. Cells 6 to 13 (title, kind, author, publisher, language, font type, year, printed count) are built by the function but not restated.
- Listing endpoints that return a table unchanged (`get_universities`, `get_directions`, `get_kafedras`, `get_subjects`, `get_literatures`, `get_admins`) are not modelled. Each is a plain read of a whole table.
- File I/O is left out: writing uploaded news images, and sending the literature file. The 404 for a file path that no longer exists on disk depends on the file system.
- Password hashing, password verification and JWT signing and decoding are function parameters. Token expiry is part of decoding. `app/utils/security.py` and `app/models/user.py` are not part of this model.
- The export's database query, with its eager loading and row order, is an input: a tree of universities, directions, subjects and literature.
- Workbook styling is not modelled (fonts, fills, borders, column widths, row heights), nor serialisation to the response stream.
- Sheet titles openpyxl accepts are kept as the university name. A title over 31 characters is kept by openpyxl too, with only a warning. openpyxl renames a title that equals the title of a sheet already in the workbook, ignoring case, by adding a numeric suffix. This includes the first sheet's own default title "Sheet": a first university named "sheet" gets the title "sheet1". openpyxl also gives a later sheet with an empty name its default title. The model keeps the university's name in all of these cases.
- Statistics.Export (and Statistics.BuildSheet, Statistics.BuildSheets): two things openpyxl does to cell text are not modelled. It cuts text to 32767 characters, while the model's rows keep all of it. It stores text that starts with "=" as a formula, while the model keeps it as text.
- Cells of a null value in the merge scan are not modelled: all direction columns used for merging are NOT NULL.
- ORM delete cascades are not modelled: deleting a university, direction, kafedra or subject removes only that row.
- Foreign keys and NOT NULL columns are not checked, except the unique columns (admin email, university name, direction course, tag name). A request with a dangling id is stored as sent, and so is a create whose required value is missing.
- An explicit null for a NOT NULL column in an update cannot be expressed: the patches carry a plain `Option` for those columns, so `None` means "not sent". In the source such a null is kept by `model_dump(exclude_unset=True)` and the commit fails with a 500.
- All tables draw keys from one shared counter. The database has one sequence per table, so ids here differ from real ones. No operation depends on their values.
- The news date is the `now` parameter instead of the server clock.
- DirectionRouter.CreateDirection, DirectionRouter.UpdateDirection, KafedraRouter.CreateKafedra, KafedraRouter.UpdateKafedra, SubjectRouter.CreateSubjectsBulk, SubjectRouter.UpdateSubject, LiteratureRouter.CreateLiterature, LiteratureRouter.UpdateLiterature, NewsRouter.CreateNews and NewsRouter.UpdateNews: the response body is not modelled. The response schemas declare `university_id` (and, for literature, `subject_id`) as a required integer, but the columns are nullable. A row stored with a null university is committed first, and then the reply fails validation with a 500. This happens, for example, when a superadmin without a university creates a row, or when an update sends `"university_id": null`. The model returns the success result in these cases. The reply of `update_subject` also echoes the sent `direction_ids`, while the stored links stay unchanged.
- Requests run one at a time, each atomically. Concurrent sessions are left out.

## Findings

| source | as written | input that shows it | evidently intended | confidence | as-written member | corrected member |
|---|---|---|---|---|---|---|
| app/routers/auth.py:64 | `require_role("owner")` is given a string, so the guard's `in` tests for a substring of "owner" (modelled by AuthRouter.CreateAdminAsWritten) | an admin whose stored role is "own" (the unauthenticated `POST /admins` stores any role string) passes the guard of `/auth/create-admin` | `require_role(["owner"])`: only owners create superadmins | high, not executed | Dependencies.OwnerTextAdmitsOtherRoles | AuthRouter.CreateAdmin |
| app/routers/auth.py:37-40 | registration checks only the user table for the email, while the session lookup searches admins first (modelled by AuthRouter.RegisterAsWritten) | an owner with email boss@uni.uz exists; anyone registers boss@uni.uz as a user and logs in; the token's `sub` resolves to the owner row | registration refuses an email held by any account | medium, not executed | AuthRouter.RegisterShadowsAdminAsWritten | AuthRouter.Register |

=== FILE: admin.dfy ===
/** The `/admins` router: create, read, update and delete of admin rows. None of its
    endpoints asks for a token. The `email` column is unique, so a write that would
    duplicate an email fails when it is committed (500). */
module AdminRouter {
  import opened Common
  import opened Store
  import opened Dependencies

  /** The create payload; `role` is any string, "superadmin" when the request omits it. */
  datatype AdminCreate = AdminCreate(email: string, password: string, role: string, universityId: Option<int>)

  /** The update payload: a field is `Some` exactly when the request sent a non-null value. */
  datatype AdminPatch = AdminPatch(
    email: Option<string>,
    role: Option<string>,
    universityId: Option<int>,
    password: Option<string>)

  /** Some admin other than `id` uses `email`. */
  predicate EmailUsedElsewhere(admins: map<int, Admin>, id: int, email: string) {
    exists k :: k in admins && k != id && admins[k].email == email
  }

  /** The row an update leaves: each sent field replaces the stored one, a sent password is
      hashed; a null `university_id` is indistinguishable from an omitted one, so it never
      clears the column. */
  function PatchAdmin(a: Admin, patch: AdminPatch, hash: string -> string): (b: Admin)
    ensures patch == AdminPatch(None, None, None, None) ==> b == a
    ensures b.email == (if patch.email.Some? then patch.email.value else a.email)
    ensures patch.role.Some? ==> b.role.Name() == patch.role.value
    ensures patch.role.None? ==> b.role == a.role
    ensures patch.universityId.Some? ==> b.universityId == patch.universityId
    ensures patch.universityId.None? ==> b.universityId == a.universityId
    ensures b.hashedPassword == (if patch.password.Some? then hash(patch.password.value) else a.hashedPassword)
  {
    Admin(
      Pick(patch.email, a.email),
      if patch.password.Some? then hash(patch.password.value) else a.hashedPassword,
      if patch.role.Some? then RoleOf(patch.role.value) else a.role,
      if patch.universityId.Some? then patch.universityId else a.universityId)
  }

  /** The stored role string is whatever was sent, read back as a role. */
  method CreateAdmin(db: Db, hash: string -> string, data: AdminCreate) returns (r: Result<int>)
    requires db.Valid()
    modifies db`admins, db`nextId
    ensures db.Valid()
    ensures r.Ok? <==> !HasAdminEmail(old(db.admins), data.email)
    ensures r.Err? ==> r.error == InternalError && db.admins == old(db.admins)
    ensures r.Ok? ==>
      && r.value !in old(db.admins)
      && db.admins == old(db.admins)[r.value := Admin(data.email, hash(data.password), RoleOf(data.role), data.universityId)]
      && db.admins[r.value].role.Name() == data.role
  {
    if exists k :: k in db.admins && db.admins[k].email == data.email {
      return Err(InternalError);
    }
    var id := db.NewId();
    db.admins := db.admins[id := Admin(data.email, hash(data.password), RoleOf(data.role), data.universityId)];
    r := Ok(id);
  }

  function GetAdmin(admins: map<int, Admin>, id: int): (r: Result<Admin>)
    ensures r.Ok? <==> id in admins
    ensures r.Ok? ==> r.value == admins[id]
    ensures r.Err? ==> r.error == NotFound
  {
    if id in admins then Ok(admins[id]) else Err(NotFound)
  }

  /** 404 for a missing row; 500 when the new email belongs to another admin; otherwise
      the patched row. */
  method UpdateAdmin(db: Db, hash: string -> string, id: int, patch: AdminPatch) returns (r: Result<Admin>)
    requires db.Valid()
    modifies db`admins
    ensures db.Valid()
    ensures id !in old(db.admins) ==> r == Err(NotFound)
    ensures id in old(db.admins) && patch.email.Some? && EmailUsedElsewhere(old(db.admins), id, patch.email.value)
      ==> r == Err(InternalError)
    ensures r.Ok? <==>
      id in old(db.admins) && (patch.email.None? || !EmailUsedElsewhere(old(db.admins), id, patch.email.value))
    ensures r.Err? ==> db.admins == old(db.admins)
    ensures r.Ok? ==>
      && r.value == PatchAdmin(old(db.admins)[id], patch, hash)
      && db.admins == old(db.admins)[id := r.value]
  {
    if id !in db.admins {
      return Err(NotFound);
    }
    if patch.email.Some? && exists k :: k in db.admins && k != id && db.admins[k].email == patch.email.value {
      return Err(InternalError);
    }
    var updated := PatchAdmin(db.admins[id], patch, hash);
    db.admins := db.admins[id := updated];
    r := Ok(updated);
  }

  method DeleteAdmin(db: Db, id: int) returns (r: Result<()>)
    requires db.Valid()
    modifies db`admins
    ensures db.Valid()
    ensures r.Ok? <==> id in old(db.admins)
    ensures r.Err? ==> r.error == NotFound && db.admins == old(db.admins)
    ensures r.Ok? ==> db.admins == old(db.admins) - {id}
  {
    if id !in db.admins {
      return Err(NotFound);
    }
    db.admins := db.admins - {id};
    r := Ok(());
  }

  /** Admin emails are unique. */
  predicate UniqueEmails(admins: map<int, Admin>) {
    forall a, b :: a in admins && b in admins && a != b ==> admins[a].email != admins[b].email
  }

  /** A successful update keeps admin emails unique. */
  lemma PatchKeepsEmailsUnique(admins: map<int, Admin>, id: int, patch: AdminPatch, hash: string -> string)
    requires UniqueEmails(admins) && id in admins
    requires patch.email.None? || !EmailUsedElsewhere(admins, id, patch.email.value)
    ensures UniqueEmails(admins[id := PatchAdmin(admins[id], patch, hash)])
  {
    var after := admins[id := PatchAdmin(admins[id], patch, hash)];
    forall a, b | a in after && b in after && a != b
      ensures after[a].email != after[b].email
    {
      if a == id {
        assert b in admins && admins[b].email == after[b].email;
      } else if b == id {
        assert a in admins && admins[a].email == after[a].email;
      }
    }
  }
}

=== FILE: auth.dfy ===
/** The `/auth` router: registration, superadmin creation, login and token refresh.
    Password hashing and token signing live outside this model; they enter as
    function parameters. */
module AuthRouter {
  import opened Common
  import opened Store
  import opened Policy
  import opened Dependencies

  /** The claims both tokens of a pair are issued from. */
  datatype TokenData = TokenData(sub: string, role: string, userId: int)

  datatype TokenPair = TokenPair(accessToken: string, refreshToken: string, tokenType: string)

  /** The token helpers: signing an access token, signing a refresh token (which adds the
      `type` claim "refresh"), and verifying and decoding any token. */
  datatype Signer = Signer(
    access: TokenData -> string,
    refresh: TokenData -> string,
    decode: string -> Option<Claims>)

  // ---- Registration ----

  /** The duplicate check of `/auth/register`: only the user table is searched. */
  predicate RegisterAllowedAsWritten(users: map<int, User>, email: string) {
    !HasUserEmail(users, email)
  }

  /** The duplicate check registration needs: the email is free in both account tables. */
  predicate RegisterAllowed(admins: map<int, Admin>, users: map<int, User>, email: string) {
    !HasUserEmail(users, email) && !HasAdminEmail(admins, email)
  }

  /** Login's lookup: the user table first, then the admin table. */
  predicate LoginResolves(users: map<int, User>, admins: map<int, Admin>, email: string, acct: Account) {
    && Stored(admins, users, acct)
    && acct.Email() == email
    && (acct.AdminAccount? ==> !HasUserEmail(users, email))
  }

  /** As written, an email held by an owner admin can be registered as a plain user. Login
      with the user's own password then finds the user row, but the session lookup of
      the issued token finds the owner row: the new user acts as the owner. */
  lemma RegisterShadowsAdminAsWritten()
    ensures var email := "boss@uni.uz";
      var admins := map[1 := Admin(email, "owner-hash", Owner, None)];
      var u := NewUser("Eve", "E", email, "eve-hash");
      var users := map[2 := u];
      && RegisterAllowedAsWritten(map[], email)
      && LoginResolves(users, admins, email, UserAccount(2, u))
      && (forall acct :: ResolvesTo(admins, users, email, acct) ==> acct == AdminAccount(1, admins[1]))
      && admins[1].role == Owner
  {
    var email := "boss@uni.uz";
    var admins := map[1 := Admin(email, "owner-hash", Owner, None)];
    var u := NewUser("Eve", "E", email, "eve-hash");
    var users := map[2 := u];
    assert admins[1].email == email;
    assert HasAdminEmail(admins, email);
    assert !HasUserEmail(map[], email);
  }

  /** With the full duplicate check, the registered user is the only account with its
      email, so login and the session lookup of its token both land on that user. */
  lemma RegisterKeepsLookupsAgreeing(admins: map<int, Admin>, users: map<int, User>, id: int, u: User, acct: Account)
    requires RegisterAllowed(admins, users, u.email)
    requires id !in users
    ensures ResolvesTo(admins, users[id := u], u.email, acct) <==> acct == UserAccount(id, u)
    ensures LoginResolves(users[id := u], admins, u.email, acct) <==> acct == UserAccount(id, u)
  {
    var after := users[id := u];
    assert after[id] == u;
  }

  /** The row registration stores: a plain user without a university, with the hash. */
  function NewUser(firstName: string, lastName: string, email: string, hashed: string): User {
    User(Some(firstName), Some(lastName), email, hashed, PlainUser, None)
  }

  /** `/auth/register` as written: 400 when the user table has the email; an email held
      only by an admin is registered. */
  method RegisterAsWritten(
    db: Db, hash: string -> string,
    firstName: string, lastName: string, email: string, password: string)
    returns (r: Result<int>)
    requires db.Valid()
    modifies db`users, db`nextId
    ensures db.Valid()
    ensures r.Ok? <==> RegisterAllowedAsWritten(old(db.users), email)
    ensures r.Err? ==> r.error == BadRequest && db.users == old(db.users)
    ensures r.Ok? ==>
      && r.value !in old(db.users)
      && db.users == old(db.users)[r.value := NewUser(firstName, lastName, email, hash(password))]
  {
    if exists k :: k in db.users && db.users[k].email == email {
      return Err(BadRequest);
    }
    var id := db.NewId();
    db.users := db.users[id := NewUser(firstName, lastName, email, hash(password))];
    r := Ok(id);
  }

  /** `/auth/register` corrected (see the README's Findings): 400 when the email is taken
      by an account of either table; otherwise a plain user without a university, with the
      hashed password. */
  method Register(
    db: Db, hash: string -> string,
    firstName: string, lastName: string, email: string, password: string)
    returns (r: Result<int>)
    requires db.Valid()
    modifies db`users, db`nextId
    ensures db.Valid()
    ensures r.Ok? <==> RegisterAllowed(db.admins, old(db.users), email)
    ensures r.Err? ==> r.error == BadRequest && db.users == old(db.users)
    ensures r.Ok? ==>
      && r.value !in old(db.users)
      && db.users == old(db.users)[r.value := NewUser(firstName, lastName, email, hash(password))]
  {
    if exists k :: k in db.users && db.users[k].email == email {
      return Err(BadRequest);
    }
    if exists k :: k in db.admins && db.admins[k].email == email {
      return Err(BadRequest);
    }
    var id := db.NewId();
    db.users := db.users[id := NewUser(firstName, lastName, email, hash(password))];
    r := Ok(id);
  }

  // ---- Superadmin creation ----

  /** `/auth/create-admin` as written: the guard is handed the string "owner", so any
      caller whose role string occurs inside "owner" passes (403 otherwise); an email
      already used by an admin violates the column's unique constraint (500). */
  method CreateAdminAsWritten(
    db: Db, caller: Account, hash: string -> string,
    email: string, password: string, universityId: int)
    returns (r: Result<int>)
    requires db.Valid()
    modifies db`admins, db`nextId
    ensures db.Valid()
    ensures !IsSubstring(caller.CallerRole().Name(), "owner") ==> r == Err(Forbidden)
    ensures r.Ok? <==> IsSubstring(caller.CallerRole().Name(), "owner") && !HasAdminEmail(old(db.admins), email)
    ensures r.Err? && IsSubstring(caller.CallerRole().Name(), "owner") ==> r.error == InternalError
    ensures r.Err? ==> db.admins == old(db.admins)
    ensures r.Ok? ==>
      && r.value !in old(db.admins)
      && db.admins == old(db.admins)[r.value := Admin(email, hash(password), Superadmin, Some(universityId))]
  {
    var guard := RequireRoleText(caller, "owner");
    if guard.Err? {
      return Err(guard.error);
    }
    if exists k :: k in db.admins && db.admins[k].email == email {
      return Err(InternalError);
    }
    var id := db.NewId();
    db.admins := db.admins[id := Admin(email, hash(password), Superadmin, Some(universityId))];
    r := Ok(id);
  }

  /** `/auth/create-admin` corrected (see the README's Findings): only an owner (403
      otherwise) creates a superadmin bound to the given university; an email already used
      by an admin violates the column's unique constraint (500). */
  method CreateAdmin(
    db: Db, caller: Account, hash: string -> string,
    email: string, password: string, universityId: int)
    returns (r: Result<int>)
    requires db.Valid()
    modifies db`admins, db`nextId
    ensures db.Valid()
    ensures caller.CallerRole() != Owner ==> r == Err(Forbidden)
    ensures caller.CallerRole() == Owner && HasAdminEmail(old(db.admins), email) ==> r == Err(InternalError)
    ensures r.Ok? <==> caller.CallerRole() == Owner && !HasAdminEmail(old(db.admins), email)
    ensures r.Err? ==> db.admins == old(db.admins)
    ensures r.Ok? ==>
      && r.value !in old(db.admins)
      && db.admins == old(db.admins)[r.value := Admin(email, hash(password), Superadmin, Some(universityId))]
  {
    var guard := RequireRole(caller, OWNER_ROLES);
    RequireOwnerAdmitsOnlyOwner(caller);
    if guard.Err? {
      return Err(guard.error);
    }
    if exists k :: k in db.admins && db.admins[k].email == email {
      return Err(InternalError);
    }
    var id := db.NewId();
    db.admins := db.admins[id := Admin(email, hash(password), Superadmin, Some(universityId))];
    r := Ok(id);
  }

  // ---- Tokens ----

  /** The claims a login issues for an account: its email, its role string and its id. */
  function TokenDataOf(acct: Account): TokenData {
    TokenData(acct.Email(), acct.CallerRole().Name(), acct.id)
  }

  /** Both tokens are signed from the same claims. */
  function IssueTokens(signer: Signer, data: TokenData): TokenPair {
    TokenPair(signer.access(data), signer.refresh(data), "bearer")
  }

  /** `/auth/login`: the user table is searched first, then the admin table; 400 when no
      account has the email or the password does not verify against the found one. */
  method Login(db: Db, signer: Signer, verify: (string, string) -> bool, email: string, password: string)
    returns (r: Result<TokenPair>)
    ensures !HasUserEmail(db.users, email) && !HasAdminEmail(db.admins, email) ==> r == Err(BadRequest)
    ensures r.Err? ==> r.error == BadRequest
    ensures r.Ok? ==>
      exists acct :: LoginResolves(db.users, db.admins, email, acct)
        && verify(password, acct.HashedPassword())
        && r.value == IssueTokens(signer, TokenDataOf(acct))
    ensures (HasUserEmail(db.users, email) || HasAdminEmail(db.admins, email))
      && (forall acct :: LoginResolves(db.users, db.admins, email, acct) ==> verify(password, acct.HashedPassword()))
      ==> r.Ok?
  {
    var found: Option<Account> := None;
    if exists k :: k in db.users && db.users[k].email == email {
      var k :| k in db.users && db.users[k].email == email;
      found := Some(UserAccount(k, db.users[k]));
    } else if exists k :: k in db.admins && db.admins[k].email == email {
      var k :| k in db.admins && db.admins[k].email == email;
      found := Some(AdminAccount(k, db.admins[k]));
    }
    if found.None? || !verify(password, found.value.HashedPassword()) {
      return Err(BadRequest);
    }
    assert LoginResolves(db.users, db.admins, email, found.value);
    r := Ok(IssueTokens(signer, TokenDataOf(found.value)));
  }

  /** `/auth/refresh`: 401 when the token does not decode or its type is not "refresh";
      a refresh token lacking `sub`, `role` or `user_id` raises a key error the handler
      does not catch (500); otherwise a new pair from the same three claims. */
  function Refresh(signer: Signer, token: string): (r: Result<TokenPair>)
    ensures signer.decode(token).None? ==> r == Err(Unauthorized)
    ensures signer.decode(token).Some? && signer.decode(token).value.tokenType != Some("refresh") ==> r == Err(Unauthorized)
    ensures r.Ok? <==>
      && signer.decode(token).Some?
      && var c := signer.decode(token).value;
      && c.tokenType == Some("refresh") && c.sub.Some? && c.role.Some? && c.userId.Some?
    ensures r.Ok? ==>
      var c := signer.decode(token).value;
      r.value == IssueTokens(signer, TokenData(c.sub.value, c.role.value, c.userId.value))
    ensures r.Err? ==> r.error == Unauthorized || r.error == InternalError
  {
    match signer.decode(token)
    case None => Err(Unauthorized)
    case Some(c) =>
      if c.tokenType != Some("refresh") then Err(Unauthorized)
      else if c.sub.None? || c.role.None? || c.userId.None? then Err(InternalError)
      else Ok(IssueTokens(signer, TokenData(c.sub.value, c.role.value, c.userId.value)))
  }

  /** What the signer promises: a refresh token decodes to the claims it was signed from,
      with type "refresh". */
  predicate DecodesRefresh(signer: Signer, data: TokenData) {
    signer.decode(signer.refresh(data)) == Some(Claims(Some(data.sub), Some(data.role), Some(data.userId), Some("refresh")))
  }

  /** Refreshing the refresh token of a pair reissues exactly that pair. */
  lemma RefreshReissuesPair(signer: Signer, data: TokenData)
    requires DecodesRefresh(signer, data)
    ensures Refresh(signer, IssueTokens(signer, data).refreshToken) == Ok(IssueTokens(signer, data))
  {
  }

  /** An access token, whose type is not "refresh", is refused by the refresh endpoint. */
  lemma AccessTokenCannotRefresh(signer: Signer, data: TokenData, tokenType: Option<string>)
    requires tokenType != Some("refresh")
    requires signer.decode(signer.access(data)) == Some(Claims(Some(data.sub), Some(data.role), Some(data.userId), tokenType))
    ensures Refresh(signer, IssueTokens(signer, data).accessToken) == Err(Unauthorized)
  {
  }
}

=== FILE: common.dfy ===
/** Shared vocabulary of the backend model: optional values, HTTP error statuses,
    handler results and the closed set of role names. */
module Common {

  datatype Option<+T> = None | Some(value: T)

  /** The HTTP errors the handlers raise. */
  datatype Status = BadRequest | Unauthorized | Forbidden | NotFound | InternalError {
    function Code(): int {
      match this
      case BadRequest => 400
      case Unauthorized => 401
      case Forbidden => 403
      case NotFound => 404
      case InternalError => 500
    }
  }

  /** What a handler returns: a value, or the error it raises. */
  datatype Result<+T> = Ok(value: T) | Err(error: Status)

  /** Python truthiness of an optional integer: `None` and `0` are both falsy. */
  predicate Falsy(x: Option<int>) {
    x == None || x == Some(0)
  }

  /** Python truthiness of an optional string: `None` and `""` are both falsy. */
  predicate Truthy(s: Option<string>) {
    s.Some? && s.value != ""
  }

  /** `x or d` for an optional value whose falsy value is `falsy`. */
  function OrElse<T(==)>(x: Option<T>, falsy: T, d: T): T {
    if x.Some? && x.value != falsy then x.value else d
  }

  /** A patch field: the new value when the field was sent, the current one otherwise. */
  function Pick<T>(sent: Option<T>, current: T): T {
    if sent.Some? then sent.value else current
  }

  /** No element occurs twice. */
  predicate Distinct<T(==)>(s: seq<T>) {
    forall i, j :: 0 <= i < j < |s| ==> s[i] != s[j]
  }

  /** Role names as the account tables store them (a plain string column). */
  datatype RoleName = Owner | Superadmin | PlainUser | Other(name: string) {
    /** The string stored in the `role` column. */
    function Name(): string {
      match this
      case Owner => "owner"
      case Superadmin => "superadmin"
      case PlainUser => "user"
      case Other(n) => n
    }
  }

  /** A role in canonical form: `Other` never carries one of the three known names. */
  type Role = r: RoleName | r.Other? ==> r.name != "owner" && r.name != "superadmin" && r.name != "user"
    witness PlainUser

  /** Reads a stored role string. */
  function RoleOf(s: string): (r: Role)
    ensures r.Name() == s
  {
    if s == "owner" then Owner
    else if s == "superadmin" then Superadmin
    else if s == "user" then PlainUser
    else Other(s)
  }

  /** Reading back the stored string gives the same role: role names are a faithful encoding. */
  lemma RoleNameRoundTrip(r: Role)
    ensures RoleOf(r.Name()) == r
  {
    match r
    case Owner =>
    case Superadmin =>
    case PlainUser =>
    case Other(n) =>
  }

  /** Python's `a in b` for strings: `a` occurs as a contiguous substring of `b`. */
  predicate IsSubstring(a: string, b: string)
    decreases |b|
  {
    a <= b || (|b| > 0 && IsSubstring(a, b[1..]))
  }
}

=== FILE: dependencies.dfy ===
/** Request dependencies: resolving the bearer token to a stored account, and the role
    guards the routers put in front of their handlers. */
module Dependencies {
  import opened Common
  import opened Store
  import opened Policy

  /** The claims a decoded token carries; a claim the token lacks is `None`. */
  datatype Claims = Claims(
    sub: Option<string>,
    role: Option<string>,
    userId: Option<int>,
    tokenType: Option<string>)

  predicate HasAdminEmail(admins: map<int, Admin>, email: string) {
    exists k :: k in admins && admins[k].email == email
  }

  predicate HasUserEmail(users: map<int, User>, email: string) {
    exists k :: k in users && users[k].email == email
  }

  /** The account is a stored row of its table. */
  predicate Stored(admins: map<int, Admin>, users: map<int, User>, acct: Account) {
    match acct
    case AdminAccount(id, a) => id in admins && admins[id] == a
    case UserAccount(id, u) => id in users && users[id] == u
  }

  /** An account the session lookup may return for `email`: a stored row with that email,
      and a user row only when no admin row has it (admins are searched first). */
  predicate ResolvesTo(admins: map<int, Admin>, users: map<int, User>, email: string, acct: Account) {
    && Stored(admins, users, acct)
    && acct.Email() == email
    && (acct.UserAccount? ==> !HasAdminEmail(admins, email))
  }

  /** The session lookup by email: the admin table first, then the user table. */
  method AccountByEmail(admins: map<int, Admin>, users: map<int, User>, email: string) returns (found: Option<Account>)
    ensures found.Some? ==> ResolvesTo(admins, users, email, found.value)
    ensures found.None? <==> !HasAdminEmail(admins, email) && !HasUserEmail(users, email)
  {
    if exists k :: k in admins && admins[k].email == email {
      var k :| k in admins && admins[k].email == email;
      return Some(AdminAccount(k, admins[k]));
    }
    if exists k :: k in users && users[k].email == email {
      var k :| k in users && users[k].email == email;
      return Some(UserAccount(k, users[k]));
    }
    return None;
  }

  /** The caller behind a bearer token: 401 when the token does not decode, carries no
      `sub`, or names an email no account has. The token's type is not looked at, so a
      refresh token authenticates like an access token. */
  method CurrentUser(db: Db, decode: string -> Option<Claims>, token: string) returns (r: Result<Account>)
    ensures decode(token).None? ==> r == Err(Unauthorized)
    ensures decode(token).Some? && decode(token).value.sub.None? ==> r == Err(Unauthorized)
    ensures r.Err? ==> r.error == Unauthorized
    ensures r.Ok? ==>
      && decode(token).Some? && decode(token).value.sub == Some(r.value.Email())
      && ResolvesTo(db.admins, db.users, r.value.Email(), r.value)
    ensures decode(token).Some? && decode(token).value.sub.Some? ==>
      var email := decode(token).value.sub.value;
      r.Ok? <==> HasAdminEmail(db.admins, email) || HasUserEmail(db.users, email)
  {
    var claims := decode(token);
    if claims.None? || claims.value.sub.None? {
      return Err(Unauthorized);
    }
    var found := AccountByEmail(db.admins, db.users, claims.value.sub.value);
    if found.None? {
      return Err(Unauthorized);
    }
    r := Ok(found.value);
  }

  /** `require_role(roles)` with a list: 403 unless the caller's stored role string is an
      element of the list. */
  function RequireRole(caller: Account, roles: seq<string>): (r: Result<Account>)
    ensures r.Ok? <==> caller.CallerRole().Name() in roles
    ensures r.Ok? ==> r.value == caller
    ensures r.Err? ==> r.error == Forbidden
  {
    if caller.CallerRole().Name() in roles then Ok(caller) else Err(Forbidden)
  }

  /** `require_role(roles)` given one string instead of a list: Python's `in` then tests
      for a substring, so every role string that occurs inside `roles` passes. */
  function RequireRoleText(caller: Account, roles: string): (r: Result<Account>)
    ensures r.Ok? <==> IsSubstring(caller.CallerRole().Name(), roles)
    ensures r.Ok? ==> r.value == caller
    ensures r.Err? ==> r.error == Forbidden
  {
    if IsSubstring(caller.CallerRole().Name(), roles) then Ok(caller) else Err(Forbidden)
  }

  /** `require_owner_or_superadmin`: 403 unless the role is one of the two admin roles. */
  function RequireOwnerOrSuperadmin(caller: Account): (r: Result<Account>)
    ensures r.Ok? <==> IsAdminRole(caller.CallerRole())
    ensures r.Ok? ==> r.value == caller
    ensures r.Err? ==> r.error == Forbidden
  {
    if caller.CallerRole().Name() in ["owner", "superadmin"] then Ok(caller) else Err(Forbidden)
  }

  const USER_ROLES: seq<string> := ["user", "superadmin", "owner"]
  const SUPERADMIN_ROLES: seq<string> := ["superadmin", "owner"]
  const OWNER_ROLES: seq<string> := ["owner"]

  /** `require_user` admits exactly the three known roles; a stored role string outside
      them is refused. */
  lemma RequireUserAdmitsKnownRoles(caller: Account)
    ensures RequireRole(caller, USER_ROLES).Ok? <==> !caller.CallerRole().Other?
  {
    var r := caller.CallerRole();
    if r.Other? {
      assert r.name != "user" && r.name != "superadmin" && r.name != "owner";
      assert r.Name() !in USER_ROLES;
    }
  }

  /** `require_superadmin` and `require_owner_or_superadmin` admit the same callers. */
  lemma RequireSuperadminAgrees(caller: Account)
    ensures RequireRole(caller, SUPERADMIN_ROLES) == RequireOwnerOrSuperadmin(caller)
  {
    var r := caller.CallerRole();
    if r.Other? {
      assert r.name != "superadmin" && r.name != "owner";
      assert r.Name() !in SUPERADMIN_ROLES;
    }
  }

  /** `require_owner` admits the owner and nobody else. */
  lemma RequireOwnerAdmitsOnlyOwner(caller: Account)
    ensures RequireRole(caller, OWNER_ROLES).Ok? <==> caller.CallerRole() == Owner
  {
    var r := caller.CallerRole();
    if r.Other? {
      assert r.name != "owner";
      assert r.Name() !in OWNER_ROLES;
    }
  }

  /** The string form of the owner guard also admits a caller whose stored role is "own",
      a string the unauthenticated admin endpoints accept as a role. */
  lemma OwnerTextAdmitsOtherRoles(id: int, email: string, hash: string)
    ensures RequireRoleText(AdminAccount(id, Admin(email, hash, Other("own"), None)), "owner").Ok?
  {
    assert "own" <= "owner";
  }

  /** Among the three known roles, the string form of the owner guard still refuses
      superadmins and users: neither "superadmin" nor "user" occurs inside "owner". */
  lemma OwnerTextRefusesOthers(caller: Account)
    requires caller.CallerRole() == Superadmin || caller.CallerRole() == PlainUser
    ensures RequireRoleText(caller, "owner") == Err(Forbidden)
  {
    var name := caller.CallerRole().Name();
    var o := "owner";
    assert o[1..] == "wner" && o[2..] == "ner" && o[3..] == "er" && o[4..] == "r" && o[5..] == "";
    if name == "user" {
      assert name[0] != o[0] && name[0] != o[1..][0];
    }
    assert !IsSubstring(name, "");
    assert !IsSubstring(name, "r");
    assert !IsSubstring(name, "er");
    assert !IsSubstring(name, "ner");
    assert !IsSubstring(name, "wner");
    assert !IsSubstring(name, o);
  }

  /** The string form of the owner guard admits every caller the list form admits. */
  lemma OwnerTextAdmitsOwner(caller: Account)
    requires caller.CallerRole() == Owner
    ensures RequireRoleText(caller, "owner").Ok?
  {
    assert "owner" <= "owner";
  }
}

=== FILE: direction.dfy ===
/** The `/directions` router: create with university scoping and a per-university course
    check, patch-style update, delete. */
module DirectionRouter {
  import opened Common
  import opened Store
  import opened Policy

  datatype DirectionCreate = DirectionCreate(
    number: string,
    name: string,
    course: int,
    studentCount: int,
    universityId: int)

  function UniversityOfDirection(d: Direction): Option<int> { d.universityId }

  /** Does university `uid` already have a direction with this course? Directions of other
      universities do not count. */
  predicate CourseTaken(directions: map<int, Direction>, course: int, uid: Option<int>) {
    exists k :: k in directions && directions[k].course == course && directions[k].universityId == uid
  }

  /** Does any direction of any university have this course? The course column is unique
      across the whole table, so a second row with it fails to insert (500). */
  predicate CourseUsed(directions: map<int, Direction>, course: int) {
    exists k :: k in directions && directions[k].course == course
  }

  /** Does a direction other than `id` have this course? */
  predicate CourseHeldElsewhere(directions: map<int, Direction>, id: int, course: int) {
    exists k :: k in directions && k != id && directions[k].course == course
  }

  /** The table-wide unique constraint on the course column. */
  predicate CoursesUnique(directions: map<int, Direction>) {
    forall a, b :: a in directions && b in directions && a != b ==> directions[a].course != directions[b].course
  }

  /** Scope (400/403), then the per-university course check (400), then the insert, which
      the table-wide unique course column refuses (500) when another university already
      has the course. */
  method CreateDirection(db: Db, caller: Account, data: DirectionCreate) returns (r: Result<int>)
    requires db.Valid()
    modifies db`directions, db`nextId
    ensures db.Valid()
    ensures var scope := CreateScope(caller, Some(data.universityId));
      && (scope.Err? ==> r == Err(scope.error))
      && (scope.Ok? && CourseTaken(old(db.directions), data.course, scope.value) ==> r == Err(BadRequest))
      && ((scope.Ok? && !CourseTaken(old(db.directions), data.course, scope.value)
            && CourseUsed(old(db.directions), data.course)) ==> r == Err(InternalError))
      && (r.Ok? <==> scope.Ok? && !CourseUsed(old(db.directions), data.course))
      && (r.Ok? ==>
            && r.value !in old(db.directions)
            && db.directions == old(db.directions)[r.value :=
                 Direction(data.number, data.name, data.course, data.studentCount, scope.value)])
    ensures r.Err? ==> db.directions == old(db.directions)
    ensures CoursesUnique(old(db.directions)) ==> CoursesUnique(db.directions)
  {
    var scope := CreateScope(caller, Some(data.universityId));
    if scope.Err? {
      return Err(scope.error);
    }
    if CourseTaken(db.directions, data.course, scope.value) {
      return Err(BadRequest);
    }
    if exists k :: k in db.directions && db.directions[k].course == data.course {
      return Err(InternalError);
    }
    var id := db.NewId();
    db.directions := db.directions[id := Direction(data.number, data.name, data.course, data.studentCount, scope.value)];
    r := Ok(id);
  }

  /** Applies the sent fields only, after the guards of `WriteAccess` on the stored row.
      The per-university course check of create is not repeated; a course held by another
      direction violates the unique column (500). */
  method UpdateDirection(db: Db, caller: Account, id: int, patch: DirectionPatch) returns (r: Result<Direction>)
    requires db.Valid()
    modifies db`directions
    ensures db.Valid()
    ensures var v := RowAccess(caller, old(db.directions), id, UniversityOfDirection);
      && (v.Refuse? ==> r == Err(v.status) && db.directions == old(db.directions))
      && (v.Proceed? && patch.course.Some? && CourseHeldElsewhere(old(db.directions), id, patch.course.value) ==>
            r == Err(InternalError) && db.directions == old(db.directions))
      && (v.Proceed? && (patch.course.None? || !CourseHeldElsewhere(old(db.directions), id, patch.course.value)) ==>
            && r == Ok(PatchDirection(old(db.directions)[id], patch))
            && db.directions == old(db.directions)[id := r.value])
    ensures CoursesUnique(old(db.directions)) ==> CoursesUnique(db.directions)
  {
    var v := RowAccess(caller, db.directions, id, UniversityOfDirection);
    if v.Refuse? {
      return Err(v.status);
    }
    if patch.course.Some? && exists k :: k in db.directions && k != id && db.directions[k].course == patch.course.value {
      return Err(InternalError);
    }
    var updated := PatchDirection(db.directions[id], patch);
    db.directions := db.directions[id := updated];
    r := Ok(updated);
  }

  method DeleteDirection(db: Db, caller: Account, id: int) returns (r: Result<()>)
    requires db.Valid()
    modifies db`directions
    ensures db.Valid()
    ensures var v := RowAccess(caller, old(db.directions), id, UniversityOfDirection);
      && (v.Refuse? ==> r == Err(v.status) && db.directions == old(db.directions))
      && (v.Proceed? ==> r == Ok(()) && db.directions == old(db.directions) - {id})
  {
    var v := RowAccess(caller, db.directions, id, UniversityOfDirection);
    if v.Refuse? {
      return Err(v.status);
    }
    db.directions := db.directions - {id};
    r := Ok(());
  }
}

=== FILE: kafedra.dfy ===
/** The `/kafedras` router: create with university scoping and no uniqueness check,
    patch-style update, delete. */
module KafedraRouter {
  import opened Common
  import opened Store
  import opened Policy

  datatype KafedraCreate = KafedraCreate(name: string, universityId: int)

  function UniversityOfKafedra(k: Kafedra): Option<int> { k.universityId }

  method CreateKafedra(db: Db, caller: Account, data: KafedraCreate) returns (r: Result<int>)
    requires db.Valid()
    modifies db`kafedras, db`nextId
    ensures db.Valid()
    ensures var scope := CreateScope(caller, Some(data.universityId));
      && (scope.Err? ==> r == Err(scope.error) && db.kafedras == old(db.kafedras))
      && (scope.Ok? ==>
            && r.Ok? && r.value !in old(db.kafedras)
            && db.kafedras == old(db.kafedras)[r.value := Kafedra(data.name, scope.value)])
  {
    var scope := CreateScope(caller, Some(data.universityId));
    if scope.Err? {
      return Err(scope.error);
    }
    var id := db.NewId();
    db.kafedras := db.kafedras[id := Kafedra(data.name, scope.value)];
    r := Ok(id);
  }

  method UpdateKafedra(db: Db, caller: Account, id: int, patch: KafedraPatch) returns (r: Result<Kafedra>)
    requires db.Valid()
    modifies db`kafedras
    ensures db.Valid()
    ensures var v := RowAccess(caller, old(db.kafedras), id, UniversityOfKafedra);
      && (v.Refuse? ==> r == Err(v.status) && db.kafedras == old(db.kafedras))
      && (v.Proceed? ==>
            && r == Ok(PatchKafedra(old(db.kafedras)[id], patch))
            && db.kafedras == old(db.kafedras)[id := r.value])
  {
    var v := RowAccess(caller, db.kafedras, id, UniversityOfKafedra);
    if v.Refuse? {
      return Err(v.status);
    }
    var updated := PatchKafedra(db.kafedras[id], patch);
    db.kafedras := db.kafedras[id := updated];
    r := Ok(updated);
  }

  method DeleteKafedra(db: Db, caller: Account, id: int) returns (r: Result<()>)
    requires db.Valid()
    modifies db`kafedras
    ensures db.Valid()
    ensures var v := RowAccess(caller, old(db.kafedras), id, UniversityOfKafedra);
      && (v.Refuse? ==> r == Err(v.status) && db.kafedras == old(db.kafedras))
      && (v.Proceed? ==> r == Ok(()) && db.kafedras == old(db.kafedras) - {id})
  {
    var v := RowAccess(caller, db.kafedras, id, UniversityOfKafedra);
    if v.Refuse? {
      return Err(v.status);
    }
    db.kafedras := db.kafedras - {id};
    r := Ok(());
  }
}

=== FILE: literature.dfy ===
/** The `/literatures` router: create, patch-style update, delete, and the guards in
    front of a download. */
module LiteratureRouter {
  import opened Common
  import opened Store
  import opened Policy

  /** The create payload. It has no `university_id` key: only the caller's role decides it. */
  datatype LiteratureCreate = LiteratureCreate(
    title: string,
    kind: string,
    author: Option<string>,
    publisher: Option<string>,
    language: Language,
    fontType: FontType,
    year: int,
    printedCount: Option<int>,
    condition: Condition,
    usageStatus: UsageStatus,
    image: Option<string>,
    filePath: Option<string>,
    subjectId: int)

  function UniversityOfLiterature(l: Literature): Option<int> { l.universityId }

  function FromCreate(data: LiteratureCreate, uid: Option<int>): Literature {
    Literature(
      data.title, data.kind, data.author, data.publisher, data.language, data.fontType,
      data.year, data.printedCount, data.condition, data.usageStatus, data.image,
      data.filePath, Some(data.subjectId), uid)
  }

  /** Only a superadmin can create literature, and the row lands in their university.
      An owner always gets 400, because the payload never carries the key the owner
      branch asks for; every other role gets 403. */
  method CreateLiterature(db: Db, caller: Account, data: LiteratureCreate) returns (r: Result<int>)
    requires db.Valid()
    modifies db`literature, db`nextId
    ensures db.Valid()
    ensures caller.CallerRole() == Owner ==> r == Err(BadRequest)
    ensures caller.CallerRole() != Owner && caller.CallerRole() != Superadmin ==> r == Err(Forbidden)
    ensures r.Ok? <==> caller.CallerRole() == Superadmin
    ensures r.Err? ==> db.literature == old(db.literature)
    ensures r.Ok? ==>
      && r.value !in old(db.literature)
      && db.literature == old(db.literature)[r.value := FromCreate(data, caller.CallerUniversity())]
  {
    var scope := CreateScope(caller, None);
    if scope.Err? {
      return Err(scope.error);
    }
    var id := db.NewId();
    db.literature := db.literature[id := FromCreate(data, scope.value)];
    r := Ok(id);
  }

  /** The sent fields, which may include `subject_id` and `university_id`, replace the stored
      ones after the guards of `WriteAccess` on the stored row. */
  method UpdateLiterature(db: Db, caller: Account, id: int, patch: LiteraturePatch) returns (r: Result<Literature>)
    requires db.Valid()
    modifies db`literature
    ensures db.Valid()
    ensures var v := RowAccess(caller, old(db.literature), id, UniversityOfLiterature);
      && (v.Refuse? ==> r == Err(v.status) && db.literature == old(db.literature))
      && (v.Proceed? ==>
            && r == Ok(PatchLiterature(old(db.literature)[id], patch))
            && db.literature == old(db.literature)[id := r.value])
  {
    var v := RowAccess(caller, db.literature, id, UniversityOfLiterature);
    if v.Refuse? {
      return Err(v.status);
    }
    var updated := PatchLiterature(db.literature[id], patch);
    db.literature := db.literature[id := updated];
    r := Ok(updated);
  }

  method DeleteLiterature(db: Db, caller: Account, id: int) returns (r: Result<()>)
    requires db.Valid()
    modifies db`literature
    ensures db.Valid()
    ensures var v := RowAccess(caller, old(db.literature), id, UniversityOfLiterature);
      && (v.Refuse? ==> r == Err(v.status) && db.literature == old(db.literature))
      && (v.Proceed? ==> r == Ok(()) && db.literature == old(db.literature) - {id})
  {
    var v := RowAccess(caller, db.literature, id, UniversityOfLiterature);
    if v.Refuse? {
      return Err(v.status);
    }
    db.literature := db.literature - {id};
    r := Ok(());
  }

  /** The checks before a download streams a file: the row must exist and have a truthy
      `file_path` (404 otherwise, whoever asks); then the scope and role checks (403).
      On success the stored path is returned. */
  function DownloadAccess(literature: map<int, Literature>, caller: Account, id: int): (r: Result<string>)
    ensures (id !in literature || !Truthy(literature[id].filePath)) ==> r == Err(NotFound)
    ensures r.Ok? <==>
      && id in literature && Truthy(literature[id].filePath)
      && (caller.CallerRole() == Owner
          || (caller.CallerRole() == Superadmin && literature[id].universityId == caller.CallerUniversity()))
    ensures r.Ok? ==> Some(r.value) == literature[id].filePath && r.value != ""
    ensures r.Err? && id in literature && Truthy(literature[id].filePath) ==> r.error == Forbidden
  {
    if id !in literature || !Truthy(literature[id].filePath) then Err(NotFound)
    else
      match WriteAccess(caller, true, literature[id].universityId)
      case Refuse(s) => Err(s)
      case Proceed => Ok(literature[id].filePath.value)
  }
}

=== FILE: news.dfy ===
/** The `/news` router: tag-name normalisation, tag get-or-create, create, the
    newest-first listing with its tag filter, update and delete. */
module NewsRouter {
  import opened Common
  import opened Store
  import opened Policy

  // ---- Tag names ----

  /** Python's `str.isspace` on the characters the model covers (ASCII). */
  predicate IsSpace(c: char) {
    var n := c as int;
    n == 32 || 9 <= n <= 13 || 28 <= n <= 31
  }

  predicate IsUpper(c: char) {
    'A' <= c <= 'Z'
  }

  /** `str.lower()` on one character: an ASCII upper-case letter becomes its lower-case
      letter, 32 code points on; every other character is kept. */
  function LowerChar(c: char): (d: char)
    ensures IsUpper(c) ==> d as int == c as int + 32 && 'a' <= d <= 'z'
    ensures !IsUpper(c) ==> d == c
    ensures !IsUpper(d)
  {
    if IsUpper(c) then (c as int + 32) as char else c
  }

  /** `str.lower()` on ASCII letters. */
  function Lower(s: string): (r: string)
    ensures |r| == |s|
    ensures forall i :: 0 <= i < |r| ==> r[i] == LowerChar(s[i])
  {
    if s == [] then [] else [LowerChar(s[0])] + Lower(s[1..])
  }

  /** The length of the leading run of whitespace. */
  function LeadingSpaces(s: string): (n: nat)
    ensures n <= |s|
    ensures forall k :: 0 <= k < n ==> IsSpace(s[k])
    ensures n == |s| || !IsSpace(s[n])
  {
    if s != [] && IsSpace(s[0]) then 1 + LeadingSpaces(s[1..]) else 0
  }

  /** The length of the trailing run of whitespace. */
  function TrailingSpaces(s: string): (n: nat)
    ensures n <= |s|
    ensures forall k :: |s| - n <= k < |s| ==> IsSpace(s[k])
    ensures n == |s| || !IsSpace(s[|s| - n - 1])
  {
    if s != [] && IsSpace(s[|s| - 1]) then 1 + TrailingSpaces(s[..|s| - 1]) else 0
  }

  /** `str.lstrip()`: the suffix left after the leading run of whitespace. */
  function StripLeft(s: string): (r: string)
    ensures |r| <= |s| && r == s[|s| - |r|..]
    ensures forall k :: 0 <= k < |s| - |r| ==> IsSpace(s[k])
    ensures r == [] || !IsSpace(r[0])
  {
    s[LeadingSpaces(s)..]
  }

  /** `str.rstrip()`: the prefix left after the trailing run of whitespace. */
  function StripRight(s: string): (r: string)
    ensures |r| <= |s| && r == s[..|r|]
    ensures forall k :: |r| <= k < |s| ==> IsSpace(s[k])
    ensures r == [] || !IsSpace(r[|r| - 1])
  {
    s[..|s| - TrailingSpaces(s)]
  }

  /** `str.strip()`: the slice starting after the leading whitespace and ending before the
      trailing whitespace; it neither starts nor ends with whitespace. */
  function Strip(s: string): (r: string)
    ensures var i := LeadingSpaces(s);
      && i + |r| <= |s| && r == s[i..i + |r|]
      && forall k :: i + |r| <= k < |s| ==> IsSpace(s[k])
    ensures r == [] || (!IsSpace(r[0]) && !IsSpace(r[|r| - 1]))
  {
    var left := StripLeft(s);
    var r := StripRight(left);
    var i := LeadingSpaces(s);
    assert left == s[i..];
    forall k | i + |r| <= k < |s|
      ensures IsSpace(s[k])
    {
      assert s[k] == left[k - i];
    }
    r
  }

  /** The stored form of a tag name: `tag_name.lower().strip()`. */
  function Normalize(name: string): string {
    Strip(Lower(name))
  }

  lemma {:induction false} LowerFixed(s: string)
    requires forall i :: 0 <= i < |s| ==> !IsUpper(s[i])
    ensures Lower(s) == s
  {
    if s != [] {
      LowerFixed(s[1..]);
    }
  }

  lemma {:induction false} StripFixed(s: string)
    requires s == [] || (!IsSpace(s[0]) && !IsSpace(s[|s| - 1]))
    ensures Strip(s) == s
  {
  }

  /** A normalised name has no upper-case letter and no surrounding whitespace, so
      normalising it again changes nothing. */
  lemma NormalizeIdempotent(name: string)
    ensures Normalize(Normalize(name)) == Normalize(name)
  {
    var l := Lower(name);
    var n := Strip(l);
    forall i | 0 <= i < |n|
      ensures !IsUpper(n[i])
    {
      assert n[i] == l[LeadingSpaces(l) + i];
    }
    LowerFixed(n);
    StripFixed(n);
  }

  /** The listing filter lower-cases the query but does not strip it: a query that starts
      with whitespace never equals a name stored through create or update. */
  lemma UnstrippedQueryNeverMatches(query: string, name: string)
    requires query != [] && IsSpace(query[0])
    ensures Lower(query) != Normalize(name)
  {
    assert IsSpace(Lower(query)[0]);
  }

  // ---- Tag get-or-create ----

  /** `select(Tag).where(Tag.name == name)`, one row or none. */
  method FindTag(tags: map<int, Tag>, name: string) returns (found: Option<int>)
    ensures found.Some? ==> found.value in tags && tags[found.value].name == name
    ensures found.None? ==> forall k :: k in tags ==> tags[k].name != name
  {
    if exists k :: k in tags && tags[k].name == name {
      var k :| k in tags && tags[k].name == name;
      found := Some(k);
    } else {
      found := None;
    }
  }

  /** Tag names are unique, as the `tags.name` column's constraint demands. */
  predicate UniqueNames(tags: map<int, Tag>) {
    forall a, b :: a in tags && b in tags && a != b ==> tags[a].name != tags[b].name
  }

  /** Every tag of `before` is still in `after`, unchanged. */
  predicate KeepsTags(before: map<int, Tag>, after: map<int, Tag>) {
    forall k :: k in before ==> k in after && after[k] == before[k]
  }

  /** One name of the loop: the existing tag with that name, or a new one. */
  method GetOrCreateTag(db: Db, name: string) returns (id: int)
    requires db.Valid()
    modifies db`tags, db`nextId
    ensures db.Valid()
    ensures id in db.tags && db.tags[id].name == name
    ensures KeepsTags(old(db.tags), db.tags)
    ensures (exists k :: k in old(db.tags) && old(db.tags)[k].name == name) ==> db.tags == old(db.tags)
    ensures db.tags.Keys <= old(db.tags).Keys + {id}
    ensures UniqueNames(old(db.tags)) ==> UniqueNames(db.tags)
  {
    var found := FindTag(db.tags, name);
    if found.Some? {
      id := found.value;
    } else {
      id := db.NewId();
      db.tags := db.tags[id := Tag(name)];
    }
  }

  /** For each given name, in order: the tag whose name is the normalised name, reusing an
      existing tag and creating one otherwise. Existing tags are never changed, a new tag
      carries one of the given names, and names stay unique. */
  method GetOrCreateTags(db: Db, names: seq<string>) returns (ids: seq<int>)
    requires db.Valid()
    modifies db`tags, db`nextId
    ensures db.Valid()
    ensures |ids| == |names|
    ensures forall i :: 0 <= i < |ids| ==> ids[i] in db.tags && db.tags[ids[i]].name == Normalize(names[i])
    ensures KeepsTags(old(db.tags), db.tags)
    ensures forall k :: k in db.tags && k !in old(db.tags) ==> k in ids
    ensures UniqueNames(old(db.tags)) ==> UniqueNames(db.tags)
    ensures UniqueNames(old(db.tags)) ==>
      forall i, k :: 0 <= i < |ids| && k in old(db.tags) && old(db.tags)[k].name == Normalize(names[i]) ==> ids[i] == k
  {
    ids := [];
    var i := 0;
    while i < |names|
      invariant 0 <= i <= |names|
      invariant db.Valid()
      invariant |ids| == i
      invariant forall j :: 0 <= j < i ==> ids[j] in db.tags && db.tags[ids[j]].name == Normalize(names[j])
      invariant KeepsTags(old(db.tags), db.tags)
      invariant forall k :: k in db.tags && k !in old(db.tags) ==> k in ids
      invariant UniqueNames(old(db.tags)) ==> UniqueNames(db.tags)
    {
      ghost var before, idsBefore := db.tags, ids;
      var id := GetOrCreateTag(db, Normalize(names[i]));
      ids := ids + [id];
      forall j | 0 <= j < i + 1
        ensures ids[j] in db.tags && db.tags[ids[j]].name == Normalize(names[j])
      {
        if j < i {
          assert ids[j] == idsBefore[j] && ids[j] in before;
        }
      }
      forall k | k in db.tags && k !in old(db.tags)
        ensures k in ids
      {
        if k != id {
          assert k in before;
          assert k in idsBefore;
        }
      }
      i := i + 1;
    }
  }

  // ---- Handlers ----

  /** Where an uploaded image is stored. */
  function UploadPath(filename: string): string {
    "uploads/" + filename
  }

  /** Is the news item linked to a tag with exactly this name? */
  predicate HasTag(n: News, tags: map<int, Tag>, name: string) {
    exists j :: 0 <= j < |n.tagIds| && n.tagIds[j] in tags && tags[n.tagIds[j]].name == name
  }

  /** Scoping as for every create (owner must send a truthy university, superadmin's own
      replaces it, others 403); then a truthy tag list becomes links to the normalised
      tags, in the given order; with no tags the item has no links. */
  method CreateNews(
    db: Db, caller: Account, title: string, description: string, universityId: int,
    tagNames: Option<seq<string>>, imgFilename: Option<string>, now: int)
    returns (r: Result<int>)
    requires db.Valid()
    modifies db`news, db`tags, db`nextId
    ensures db.Valid()
    ensures var scope := CreateScope(caller, Some(universityId));
      && (scope.Err? ==> r == Err(scope.error) && db.news == old(db.news) && db.tags == old(db.tags))
      && (scope.Ok? ==> r.Ok?)
      && (r.Ok? ==>
            && r.value !in old(db.news)
            && r.value in db.news
            && db.news == old(db.news)[r.value := db.news[r.value]]
            && var n := db.news[r.value];
            && n.title == title && n.description == description && n.date == now
            && n.universityId == scope.value
            && n.img == (if imgFilename.Some? then Some(UploadPath(imgFilename.value)) else None)
            && (tagNames == None || tagNames == Some([]) ==> n.tagIds == [] && db.tags == old(db.tags))
            && (tagNames.Some? ==>
                  && |n.tagIds| == |tagNames.value|
                  && (forall i :: 0 <= i < |n.tagIds| ==>
                        n.tagIds[i] in db.tags && db.tags[n.tagIds[i]].name == Normalize(tagNames.value[i]))
                  && (UniqueNames(old(db.tags)) ==>
                        forall i, k :: 0 <= i < |n.tagIds| && k in old(db.tags) && old(db.tags)[k].name == Normalize(tagNames.value[i])
                          ==> n.tagIds[i] == k))
            && forall k :: k in db.tags && k !in old(db.tags) ==> k in n.tagIds)
    ensures KeepsTags(old(db.tags), db.tags)
    ensures UniqueNames(old(db.tags)) ==> UniqueNames(db.tags)
  {
    var scope := CreateScope(caller, Some(universityId));
    if scope.Err? {
      return Err(scope.error);
    }
    var img := if imgFilename.Some? then Some(UploadPath(imgFilename.value)) else None;
    var tagIds: seq<int> := [];
    if tagNames.Some? && tagNames.value != [] {
      tagIds := GetOrCreateTags(db, tagNames.value);
    }
    var id := db.NewId();
    db.news := db.news[id := News(title, description, img, now, scope.value, tagIds)];
    r := Ok(id);
  }

  /** 404 for a missing item and no role or university check at all. Title and description
      change only when sent; a sent tag list, even an empty one, replaces every link; no
      list leaves the links alone. */
  method UpdateNews(
    db: Db, id: int, title: Option<string>, description: Option<string>,
    tagNames: Option<seq<string>>, imgFilename: Option<string>)
    returns (r: Result<News>)
    requires db.Valid()
    modifies db`news, db`tags, db`nextId
    ensures db.Valid()
    ensures id !in old(db.news) ==> r == Err(NotFound) && db.news == old(db.news) && db.tags == old(db.tags)
    ensures id in old(db.news) ==>
      && r.Ok?
      && db.news == old(db.news)[id := r.value]
      && var before := old(db.news)[id];
      && r.value.title == Pick(title, before.title)
      && r.value.description == Pick(description, before.description)
      && r.value.img == (if imgFilename.Some? then Some(UploadPath(imgFilename.value)) else before.img)
      && r.value.date == before.date && r.value.universityId == before.universityId
      && (tagNames.None? ==> r.value.tagIds == before.tagIds && db.tags == old(db.tags))
      && (tagNames.Some? ==>
            && |r.value.tagIds| == |tagNames.value|
            && (forall i :: 0 <= i < |r.value.tagIds| ==>
                  r.value.tagIds[i] in db.tags && db.tags[r.value.tagIds[i]].name == Normalize(tagNames.value[i]))
            && (UniqueNames(old(db.tags)) ==>
                  forall i, k :: 0 <= i < |r.value.tagIds| && k in old(db.tags) && old(db.tags)[k].name == Normalize(tagNames.value[i])
                    ==> r.value.tagIds[i] == k)
            && forall k :: k in db.tags && k !in old(db.tags) ==> k in r.value.tagIds)
    ensures KeepsTags(old(db.tags), db.tags)
    ensures UniqueNames(old(db.tags)) ==> UniqueNames(db.tags)
  {
    if id !in db.news {
      return Err(NotFound);
    }
    var n := db.news[id];
    n := n.(title := Pick(title, n.title), description := Pick(description, n.description));
    if imgFilename.Some? {
      n := n.(img := Some(UploadPath(imgFilename.value)));
    }
    if tagNames.Some? {
      var tagIds := GetOrCreateTags(db, tagNames.value);
      n := n.(tagIds := tagIds);
    }
    db.news := db.news[id := n];
    r := Ok(n);
  }

  /** 404 for a missing item; only a superadmin of another university is refused (403);
      any other caller, a plain user included, deletes. */
  method DeleteNews(db: Db, caller: Account, id: int) returns (r: Result<()>)
    requires db.Valid()
    modifies db`news
    ensures db.Valid()
    ensures id !in old(db.news) ==> r == Err(NotFound)
    ensures r.Ok? <==>
      id in old(db.news)
      && (caller.CallerRole() != Superadmin || old(db.news)[id].universityId == caller.CallerUniversity())
    ensures r.Err? && id in old(db.news) ==> r.error == Forbidden
    ensures r.Err? ==> db.news == old(db.news)
    ensures r.Ok? ==> db.news == old(db.news) - {id}
  {
    if id !in db.news {
      return Err(NotFound);
    }
    if caller.CallerRole() == Superadmin && db.news[id].universityId != caller.CallerUniversity() {
      return Err(Forbidden);
    }
    db.news := db.news - {id};
    r := Ok(());
  }

  // ---- Listing ----

  /** Does the item pass the listing filter? A falsy query keeps everything; otherwise the
      item must be linked to a tag named exactly the lower-cased query. */
  predicate Listed(n: News, tags: map<int, Tag>, query: Option<string>) {
    !Truthy(query) || HasTag(n, tags, Lower(query.value))
  }

  predicate NewestFirst(news: map<int, News>, ids: seq<int>)
    requires forall i :: 0 <= i < |ids| ==> ids[i] in news
  {
    forall i, j :: 0 <= i < j < |ids| ==> news[ids[i]].date >= news[ids[j]].date
  }

  /** Putting an item in front of a newest-first list that holds nothing newer keeps it
      newest first. */
  lemma ConsNewestFirst(news: map<int, News>, x: int, rest: seq<int>)
    requires x in news && forall i :: 0 <= i < |rest| ==> rest[i] in news
    requires NewestFirst(news, rest)
    requires forall i :: 0 <= i < |rest| ==> news[x].date >= news[rest[i]].date
    ensures NewestFirst(news, [x] + rest)
  {
    var r := [x] + rest;
    forall i, j | 0 <= i < j < |r|
      ensures news[r[i]].date >= news[r[j]].date
    {
      assert r[j] == rest[j - 1];
      if i > 0 {
        assert r[i] == rest[i - 1];
      }
    }
  }

  /** Putting a new item in front of a list without repetitions keeps it so. */
  lemma ConsDistinct(x: int, rest: seq<int>)
    requires Distinct(rest) && x !in rest
    ensures Distinct([x] + rest)
  {
    var r := [x] + rest;
    forall i, j | 0 <= i < j < |r|
      ensures r[i] != r[j]
    {
      assert r[j] == rest[j - 1];
      if i > 0 {
        assert r[i] == rest[i - 1];
      }
    }
  }

  /** Inserts `k` before the first item that is not newer than it. */
  function InsertByDate(news: map<int, News>, ids: seq<int>, k: int): (r: seq<int>)
    requires k in news && forall i :: 0 <= i < |ids| ==> ids[i] in news
    requires NewestFirst(news, ids)
    requires Distinct(ids) && k !in ids
    ensures |r| == |ids| + 1
    ensures forall i :: 0 <= i < |r| ==> (r[i] in ids || r[i] == k) && r[i] in news
    ensures forall x :: x in r <==> x in ids || x == k
    ensures NewestFirst(news, r)
    ensures Distinct(r)
  {
    if ids == [] || news[k].date >= news[ids[0]].date then
      ConsNewestFirst(news, k, ids);
      ConsDistinct(k, ids);
      [k] + ids
    else
      var tail := ids[1..];
      assert forall i :: 0 <= i < |tail| ==> tail[i] == ids[i + 1];
      var rest := InsertByDate(news, tail, k);
      assert forall i :: 0 <= i < |rest| ==> news[ids[0]].date >= news[rest[i]].date;
      ConsNewestFirst(news, ids[0], rest);
      assert ids[0] !in tail;
      ConsDistinct(ids[0], rest);
      [ids[0]] + rest
  }

  /** `GET /news`: the listed items, each once, newest first. */
  method ListNews(news: map<int, News>, tags: map<int, Tag>, query: Option<string>) returns (ids: seq<int>)
    ensures Distinct(ids)
    ensures forall i :: 0 <= i < |ids| ==> ids[i] in news && Listed(news[ids[i]], tags, query)
    ensures forall k :: k in news && Listed(news[k], tags, query) ==> k in ids
    ensures NewestFirst(news, ids)
  {
    ids := [];
    var remaining := news.Keys;
    while exists key :: key in remaining
      invariant remaining <= news.Keys
      invariant Distinct(ids)
      invariant forall i :: 0 <= i < |ids| ==> ids[i] in news && ids[i] !in remaining && Listed(news[ids[i]], tags, query)
      invariant forall k :: k in news && k !in remaining && Listed(news[k], tags, query) ==> k in ids
      invariant NewestFirst(news, ids)
      decreases remaining
    {
      var key :| key in remaining;
      remaining := remaining - {key};
      if Listed(news[key], tags, query) {
        ids := InsertByDate(news, ids, key);
      }
    }
  }
}

=== FILE: policy.dfy ===
/** The authorization rules the routers repeat inline: where a create lands, and who
    may change or remove a stored row. */
module Policy {
  import opened Common
  import opened Store

  /** Outcome of the guards in front of an update or a delete. */
  datatype Verdict = Proceed | Refuse(status: Status)

  predicate IsAdminRole(r: Role) {
    r == Owner || r == Superadmin
  }

  /** The university a create writes to. A superadmin's own university replaces whatever
      was sent; an owner must send a truthy one (400 otherwise); every other role gets 403.
      `sent` is `None` when the payload carries no `university_id` key at all. */
  function CreateScope(caller: Account, sent: Option<int>): (r: Result<Option<int>>)
    ensures r.Ok? <==> caller.CallerRole() == Superadmin || (caller.CallerRole() == Owner && !Falsy(sent))
    ensures r.Ok? && caller.CallerRole() == Superadmin ==> r.value == caller.CallerUniversity()
    ensures r.Ok? && caller.CallerRole() == Owner ==> r.value == sent
    ensures r.Err? ==> r.error == (if caller.CallerRole() == Owner then BadRequest else Forbidden)
  {
    if caller.CallerRole() == Superadmin then Ok(caller.CallerUniversity())
    else if caller.CallerRole() == Owner then
      if Falsy(sent) then Err(BadRequest) else Ok(sent)
    else Err(Forbidden)
  }

  /** The guards of an update or delete on a university-scoped row, in source order:
      404 when the row is missing, 403 when a superadmin targets a row stored under another
      university, 403 when the caller is neither owner nor superadmin. `stored` is the
      row's stored `university_id`, never a value from the request. */
  function WriteAccess(caller: Account, found: bool, stored: Option<int>): (v: Verdict)
    ensures v == Proceed <==>
      found && (caller.CallerRole() == Owner || (caller.CallerRole() == Superadmin && stored == caller.CallerUniversity()))
    ensures !found ==> v == Refuse(NotFound)
    ensures found && v != Proceed ==> v == Refuse(Forbidden)
  {
    if !found then Refuse(NotFound)
    else if caller.CallerRole() == Superadmin && stored != caller.CallerUniversity() then Refuse(Forbidden)
    else if !IsAdminRole(caller.CallerRole()) then Refuse(Forbidden)
    else Proceed
  }

  /** `WriteAccess` applied to the row `id` of a table, reading its stored university. */
  function RowAccess<T>(caller: Account, table: map<int, T>, id: int, universityOf: T -> Option<int>): Verdict {
    WriteAccess(caller, id in table, if id in table then universityOf(table[id]) else None)
  }
}

=== FILE: statistics.dfy ===
/** The `/statistics/export` workbook: one sheet per university listing every literature
    row under its direction and subject, with an availability percentage, and vertical
    merges of repeated values in the five leading columns. The loaded university tree
    is an input; the spreadsheet's styling and sizing are not modelled. */
module Statistics {
  import opened Common
  import opened Store
  import opened Dependencies

  // ---- The loaded tree ----

  datatype SubjectNode = SubjectNode(subject: Subject, literature: seq<Literature>)
  datatype DirectionNode = DirectionNode(direction: Direction, subjects: seq<SubjectNode>)
  datatype UniversityNode = UniversityNode(id: int, university: University, directions: seq<DirectionNode>)

  /** The universities an export covers: all of them for an owner, the caller's own for a
      superadmin (none when the superadmin has no university). */
  function Selected(caller: Account, us: seq<UniversityNode>): (r: seq<UniversityNode>)
    ensures |r| <= |us|
    ensures caller.CallerRole() != Superadmin ==> r == us
    ensures forall u :: u in r <==>
      u in us && (caller.CallerRole() != Superadmin || Some(u.id) == caller.CallerUniversity())
  {
    if us == [] then []
    else
      var rest := Selected(caller, us[1..]);
      assert forall u :: u in us <==> u == us[0] || u in us[1..];
      if caller.CallerRole() != Superadmin || Some(us[0].id) == caller.CallerUniversity() then [us[0]] + rest
      else rest
  }

  // ---- Cells and rows ----

  datatype Cell = Text(text: string) | Number(number: int)

  type Row = seq<Cell>

  const ROW_WIDTH := 15
  /** Columns 1 to 5 (direction number, name, course, student count, subject) are merged. */
  const MERGE_COLUMNS := 5
  /** Row 1 holds the headers; data starts on row 2. */
  const FIRST_DATA_ROW := 2

  const HEADERS: seq<string> := [
    "Direction.number", "Direction.name", "Direction.course", "Direction.student_count",
    "Subject.name", "Literature.title", "Literature.kind", "Author", "Publisher",
    "Language", "Font_type", "Year", "Printed_count", "Electron", "Available_percent"]

  /** Integer division truncating toward zero, as `int()` does to a float quotient. */
  function TruncDiv(a: int, b: int): (q: int)
    requires b != 0
    ensures a >= 0 && b > 0 ==> q == a / b
  {
    var n := if a < 0 then -a else a;
    var d := if b < 0 then -b else b;
    if (a < 0) == (b < 0) then n / d else -(n / d)
  }

  /** The availability percentage of a literature row: 100 with an electronic copy;
      otherwise 600 times the printed count over the student count, truncated and capped
      at 100. A null or zero printed count counts as 0, a zero student count as 1. */
  function AvailablePercent(lit: Literature, studentCount: int): int {
    if Truthy(lit.filePath) then 100
    else
      var k := OrElse(lit.printedCount, 0, 0);
      var t := if studentCount == 0 then 1 else studentCount;
      var p := TruncDiv(k * 600, t);
      if p < 100 then p else 100
  }

  /** With a non-negative printed count and student count the percentage lies in 0..100. */
  lemma PercentInRange(lit: Literature, studentCount: int)
    requires lit.printedCount.None? || lit.printedCount.value >= 0
    requires studentCount >= 0
    ensures 0 <= AvailablePercent(lit, studentCount) <= 100
  {
    if !Truthy(lit.filePath) {
      var k := OrElse(lit.printedCount, 0, 0);
      var t := if studentCount == 0 then 1 else studentCount;
      assert k * 600 >= 0;
      assert TruncDiv(k * 600, t) == (k * 600) / t;
    }
  }

  /** Without an electronic copy and without printed copies nothing is available. */
  lemma PercentZeroWithoutCopies(lit: Literature, studentCount: int)
    requires !Truthy(lit.filePath) && Falsy(lit.printedCount)
    ensures AvailablePercent(lit, studentCount) == 0
  {
    var t := if studentCount == 0 then 1 else studentCount;
    assert OrElse(lit.printedCount, 0, 0) == 0;
    assert TruncDiv(0, t) == 0;
  }

  /** Without an electronic copy, the cap is reached exactly when the printed copies
      number at least a sixth of the students, a zero student count counting as one. */
  lemma PercentFullIffEnoughCopies(lit: Literature, studentCount: int)
    requires !Truthy(lit.filePath)
    requires lit.printedCount.None? || lit.printedCount.value >= 0
    requires studentCount >= 0
    ensures var k := OrElse(lit.printedCount, 0, 0);
      var t := if studentCount == 0 then 1 else studentCount;
      AvailablePercent(lit, studentCount) == 100 <==> 6 * k >= t
  {
    var k := OrElse(lit.printedCount, 0, 0);
    var t := if studentCount == 0 then 1 else studentCount;
    assert TruncDiv(k * 600, t) == (k * 600) / t;
    DivAtLeast(k * 600, t, 100);
  }

  /** `a / t >= c` exactly when `a >= c * t`, for a positive divisor. */
  lemma DivAtLeast(a: int, t: int, c: int)
    requires a >= 0 && t >= 1 && c >= 0
    ensures a / t >= c <==> a >= c * t
  {
    var q, m := a / t, a % t;
    assert a == q * t + m && 0 <= m < t;
    if q >= c {
      assert q * t >= c * t by { MulMono(c, q, t); }
    } else {
      assert q + 1 <= c;
      assert (q + 1) * t <= c * t by { MulMono(q + 1, c, t); }
    }
  }

  lemma MulMono(x: int, y: int, t: int)
    requires x <= y && t >= 0
    ensures x * t <= y * t
  {
    assert y * t - x * t == (y - x) * t;
  }

  /** One decimal digit. */
  function DigitChar(d: int): char
    requires 0 <= d < 10
  {
    "0123456789"[d]
  }

  /** `str()` of a non-negative integer. */
  function NatText(n: nat): string
    decreases n
  {
    if n < 10 then [DigitChar(n)] else NatText(n / 10) + [DigitChar(n % 10)]
  }

  /** `str()` of an integer. */
  function IntText(n: int): string {
    if n < 0 then "-" + NatText(-n) else NatText(n)
  }

  /** The data row of one literature item under its direction and subject. */
  function RowOf(d: Direction, s: Subject, lit: Literature): (r: Row)
    ensures |r| == ROW_WIDTH
    ensures r[..MERGE_COLUMNS] == [Text(d.number), Text(d.name), Number(d.course), Number(d.studentCount), Text(s.name)]
    ensures r[13] == Text(if Truthy(lit.filePath) then "available" else "")
    ensures r[14] == Text(IntText(AvailablePercent(lit, d.studentCount)) + "%")
  {
    [ Text(d.number), Text(d.name), Number(d.course), Number(d.studentCount), Text(s.name),
      Text(lit.title), Text(lit.kind), Text(OrElse(lit.author, "", "")), Text(OrElse(lit.publisher, "", "")),
      Text(lit.language.Value()), Text(lit.fontType.Value()), Number(lit.year),
      Number(OrElse(lit.printedCount, 0, 0)),
      Text(if Truthy(lit.filePath) then "available" else ""),
      Text(IntText(AvailablePercent(lit, d.studentCount)) + "%") ]
  }

  /** Every row has the full width. */
  predicate RowsWide(rows: seq<Row>) {
    forall k :: 0 <= k < |rows| ==> |rows[k]| == ROW_WIDTH
  }

  /** The rows of the given literature items of one subject, in order. */
  function LiteratureRows(d: Direction, s: Subject, lits: seq<Literature>): (rows: seq<Row>)
    ensures |rows| == |lits|
    ensures RowsWide(rows)
    decreases |lits|
  {
    if lits == [] then []
    else LiteratureRows(d, s, lits[..|lits| - 1]) + [RowOf(d, s, lits[|lits| - 1])]
  }

  /** The rows of the given subjects of one direction, subject after subject. */
  function SubjectRows(d: Direction, subjects: seq<SubjectNode>): (rows: seq<Row>)
    ensures RowsWide(rows)
    decreases |subjects|
  {
    if subjects == [] then []
    else
      var last := subjects[|subjects| - 1];
      SubjectRows(d, subjects[..|subjects| - 1]) + LiteratureRows(d, last.subject, last.literature)
  }

  /** The rows of the given directions, direction after direction. */
  function DirectionRows(directions: seq<DirectionNode>): (rows: seq<Row>)
    ensures RowsWide(rows)
    decreases |directions|
  {
    if directions == [] then []
    else
      var last := directions[|directions| - 1];
      DirectionRows(directions[..|directions| - 1]) + SubjectRows(last.direction, last.subjects)
  }

  lemma LiteratureRowsStep(rows: seq<Row>, out: seq<Row>, d: Direction, s: Subject, lits: seq<Literature>, k: int)
    requires 0 <= k < |lits|
    requires out == rows + LiteratureRows(d, s, lits[..k])
    ensures out + [RowOf(d, s, lits[k])] == rows + LiteratureRows(d, s, lits[..k + 1])
  {
    assert lits[..k + 1][..k] == lits[..k];
  }

  lemma SubjectRowsStep(rows: seq<Row>, out: seq<Row>, d: Direction, subjects: seq<SubjectNode>, j: int)
    requires 0 <= j < |subjects|
    requires out == rows + SubjectRows(d, subjects[..j])
    ensures out + LiteratureRows(d, subjects[j].subject, subjects[j].literature) == rows + SubjectRows(d, subjects[..j + 1])
  {
    var prefix := subjects[..j + 1];
    assert prefix[..|prefix| - 1] == subjects[..j];
    assert prefix[|prefix| - 1] == subjects[j];
    var block := LiteratureRows(d, subjects[j].subject, subjects[j].literature);
    assert SubjectRows(d, prefix) == SubjectRows(d, subjects[..j]) + block;
    AppendAssoc(rows, SubjectRows(d, subjects[..j]), block);
  }

  /** Concatenation of rows is associative. */
  lemma AppendAssoc(a: seq<Row>, b: seq<Row>, c: seq<Row>)
    ensures (a + b) + c == a + (b + c)
  {
  }

  lemma DirectionRowsStep(rows: seq<Row>, directions: seq<DirectionNode>, i: int)
    requires 0 <= i < |directions|
    requires rows == DirectionRows(directions[..i])
    ensures rows + SubjectRows(directions[i].direction, directions[i].subjects) == DirectionRows(directions[..i + 1])
  {
    assert directions[..i + 1][..i] == directions[..i];
  }

  /** The innermost loop of the row collection: one row per literature item of a subject,
      appended in order. */
  method AppendLiteratureRows(rows: seq<Row>, d: Direction, subject: SubjectNode) returns (out: seq<Row>)
    ensures out == rows + LiteratureRows(d, subject.subject, subject.literature)
  {
    out := rows;
    var k := 0;
    while k < |subject.literature|
      invariant 0 <= k <= |subject.literature|
      invariant out == rows + LiteratureRows(d, subject.subject, subject.literature[..k])
    {
      LiteratureRowsStep(rows, out, d, subject.subject, subject.literature, k);
      out := out + [RowOf(d, subject.subject, subject.literature[k])];
      k := k + 1;
    }
    assert subject.literature[..k] == subject.literature;
  }

  /** The middle loop of the row collection: the rows of each subject of a direction,
      appended subject after subject. */
  method AppendSubjectRows(rows: seq<Row>, direction: DirectionNode) returns (out: seq<Row>)
    ensures out == rows + SubjectRows(direction.direction, direction.subjects)
  {
    out := rows;
    var j := 0;
    while j < |direction.subjects|
      invariant 0 <= j <= |direction.subjects|
      invariant out == rows + SubjectRows(direction.direction, direction.subjects[..j])
    {
      SubjectRowsStep(rows, out, direction.direction, direction.subjects, j);
      out := AppendLiteratureRows(out, direction.direction, direction.subjects[j]);
      j := j + 1;
    }
    assert direction.subjects[..j] == direction.subjects;
  }

  /** Collects the data rows of one university: for each direction, each of its subjects,
      each of that subject's literature items, one row. */
  method BuildRows(u: UniversityNode) returns (rows: seq<Row>)
    ensures rows == DirectionRows(u.directions)
    ensures RowsWide(rows)
  {
    rows := [];
    var i := 0;
    while i < |u.directions|
      invariant 0 <= i <= |u.directions|
      invariant rows == DirectionRows(u.directions[..i])
    {
      DirectionRowsStep(rows, u.directions, i);
      rows := AppendSubjectRows(rows, u.directions[i]);
      i := i + 1;
    }
    assert u.directions[..i] == u.directions;
  }

  // ---- Merged ranges ----

  /** A vertical merge of the cells `firstRow..lastRow` of one column (sheet coordinates). */
  datatype Merge = Merge(firstRow: int, lastRow: int, column: int)

  /** The value in sheet row `r` (from 2) and column `col` (from 1). */
  function CellAt(rows: seq<Row>, r: int, col: int): Cell
    requires RowsWide(rows)
    requires FIRST_DATA_ROW <= r < |rows| + FIRST_DATA_ROW && 1 <= col <= MERGE_COLUMNS
  {
    rows[r - FIRST_DATA_ROW][col - 1]
  }

  /** The merges the export must produce: in each of the first five columns, every maximal
      run of at least two equal consecutive data cells. */
  predicate IsMergedRange(rows: seq<Row>, m: Merge)
    requires RowsWide(rows)
  {
    && 1 <= m.column <= MERGE_COLUMNS
    && FIRST_DATA_ROW <= m.firstRow < m.lastRow < |rows| + FIRST_DATA_ROW
    && (forall r :: m.firstRow <= r <= m.lastRow ==> CellAt(rows, r, m.column) == CellAt(rows, m.firstRow, m.column))
    && (m.firstRow == FIRST_DATA_ROW || CellAt(rows, m.firstRow - 1, m.column) != CellAt(rows, m.firstRow, m.column))
    && (m.lastRow == |rows| + 1 || CellAt(rows, m.lastRow + 1, m.column) != CellAt(rows, m.lastRow, m.column))
  }

  /** Two different merges of one column never overlap. */
  lemma MergedRangesDisjoint(rows: seq<Row>, m1: Merge, m2: Merge)
    requires RowsWide(rows)
    requires IsMergedRange(rows, m1) && IsMergedRange(rows, m2)
    requires m1.column == m2.column && m1 != m2
    ensures m1.lastRow < m2.firstRow || m2.lastRow < m1.firstRow
  {
  }

  /** The 0-based index where the run of equal values in column `c` containing index `k`
      begins. */
  function RunStart(rows: seq<Row>, c: int, k: int): (s: int)
    requires RowsWide(rows) && 0 <= c < MERGE_COLUMNS && 0 <= k < |rows|
    ensures 0 <= s <= k
    ensures forall j :: s <= j <= k ==> rows[j][c] == rows[k][c]
    ensures s == 0 || rows[s - 1][c] != rows[s][c]
    decreases k
  {
    if k == 0 || rows[k - 1][c] != rows[k][c] then k else RunStart(rows, c, k - 1)
  }

  /** A start that bounds a run of equal values ending at `k` is the run's start. */
  lemma {:induction false} RunStartUnique(rows: seq<Row>, c: int, k: int, a: int)
    requires RowsWide(rows) && 0 <= c < MERGE_COLUMNS && 0 <= a <= k < |rows|
    requires forall j :: a <= j <= k ==> rows[j][c] == rows[k][c]
    requires a == 0 || rows[a - 1][c] != rows[a][c]
    ensures RunStart(rows, c, k) == a
    decreases k
  {
    if k > a {
      assert rows[k - 1][c] == rows[k][c];
      RunStartUnique(rows, c, k - 1, a);
    }
  }

  /** The state the merge loop keeps for column `c` after `i` data rows: the last value
      seen and the sheet row where its run began. */
  predicate Tracked(rows: seq<Row>, c: int, i: int, current: Option<Cell>, start: int)
    requires RowsWide(rows) && 0 <= c < MERGE_COLUMNS && 0 <= i <= |rows|
  {
    if i == 0 then current == None && start == FIRST_DATA_ROW
    else current == Some(rows[i - 1][c]) && start == RunStart(rows, c, i - 1) + FIRST_DATA_ROW
  }

  /** Reading data row `i` (sheet row `i + 2`) in column `c`: the run ending on sheet row
      `i + 1` is a merged range exactly when the value changes, the run has two or more
      cells, and the merge starts where the run did. */
  lemma ClosedRun(rows: seq<Row>, c: int, i: int, current: Option<Cell>, start: int, m: Merge)
    requires RowsWide(rows) && 0 <= c < MERGE_COLUMNS && 0 <= i < |rows|
    requires Tracked(rows, c, i, current, start)
    requires m.column == c + 1 && m.lastRow == i + 1
    ensures IsMergedRange(rows, m) <==>
      current != Some(rows[i][c]) && i + 1 > start && m.firstRow == start
  {
    if i > 0 {
      if IsMergedRange(rows, m) {
        ClosedRunFound(rows, c, i, m);
      }
      if current != Some(rows[i][c]) && i + 1 > start && m.firstRow == start {
        ClosedRunMade(rows, c, RunStart(rows, c, i - 1), i, m);
      }
    }
  }

  /** A merged range ending on sheet row `i + 1` starts where the run ending there starts,
      and the value changes on the next row. */
  lemma ClosedRunFound(rows: seq<Row>, c: int, i: int, m: Merge)
    requires RowsWide(rows) && 0 <= c < MERGE_COLUMNS && 0 < i < |rows|
    requires m.column == c + 1 && m.lastRow == i + 1
    requires IsMergedRange(rows, m)
    ensures rows[i - 1][c] != rows[i][c]
    ensures m.firstRow == RunStart(rows, c, i - 1) + FIRST_DATA_ROW
  {
    var b := i - 1;
    var a := m.firstRow - FIRST_DATA_ROW;
    assert CellAt(rows, m.lastRow + 1, m.column) == rows[i][c];
    assert CellAt(rows, m.lastRow, m.column) == rows[b][c];
    forall j | a <= j <= b
      ensures rows[j][c] == rows[b][c]
    {
      assert CellAt(rows, j + FIRST_DATA_ROW, m.column) == rows[j][c];
    }
    if a > 0 {
      assert CellAt(rows, m.firstRow - 1, m.column) == rows[a - 1][c];
    }
    RunStartUnique(rows, c, b, a);
  }

  /** A run of equal cells from data row `a` to data row `i - 1` that starts after a change
      and is followed by a change, spanning two or more rows, is a merged range. */
  lemma ClosedRunMade(rows: seq<Row>, c: int, a: int, i: int, m: Merge)
    requires RowsWide(rows) && 0 <= c < MERGE_COLUMNS && 0 <= a < i < |rows|
    requires m.column == c + 1 && m.lastRow == i + 1 && m.firstRow == a + FIRST_DATA_ROW && i + 1 > m.firstRow
    requires forall j :: a <= j < i ==> rows[j][c] == rows[i - 1][c]
    requires a == 0 || rows[a - 1][c] != rows[a][c]
    requires rows[i - 1][c] != rows[i][c]
    ensures IsMergedRange(rows, m)
  {
    forall r | m.firstRow <= r <= m.lastRow
      ensures CellAt(rows, r, m.column) == CellAt(rows, m.firstRow, m.column)
    {
      assert rows[r - FIRST_DATA_ROW][c] == rows[i - 1][c];
    }
  }

  /** After the last data row, the run still open in column `c` is a merged range exactly
      when it has two or more cells. */
  lemma FinalRun(rows: seq<Row>, c: int, current: Option<Cell>, start: int, m: Merge)
    requires RowsWide(rows) && 0 <= c < MERGE_COLUMNS
    requires Tracked(rows, c, |rows|, current, start)
    requires m.column == c + 1 && m.lastRow == |rows| + 1
    ensures IsMergedRange(rows, m) <==> start < |rows| + 1 && m.firstRow == start
  {
    var n := |rows|;
    if n > 0 {
      var b := n - 1;
      if IsMergedRange(rows, m) {
        var a := m.firstRow - FIRST_DATA_ROW;
        forall j | a <= j <= b
          ensures rows[j][c] == rows[b][c]
        {
          assert CellAt(rows, j + FIRST_DATA_ROW, m.column) == rows[j][c];
          assert CellAt(rows, m.lastRow, m.column) == rows[b][c];
        }
        if a > 0 {
          assert CellAt(rows, m.firstRow - 1, m.column) == rows[a - 1][c];
          assert CellAt(rows, m.firstRow, m.column) == rows[a][c];
        }
        RunStartUnique(rows, c, b, a);
      }
      if start < n + 1 && m.firstRow == start {
        forall r | m.firstRow <= r <= m.lastRow
          ensures CellAt(rows, r, m.column) == CellAt(rows, m.firstRow, m.column)
        {
          assert rows[r - FIRST_DATA_ROW][c] == rows[b][c];
        }
      }
    }
  }

  /** Advancing the tracked state of column `c` over data row `i`. */
  lemma TrackedStep(rows: seq<Row>, c: int, i: int, current: Option<Cell>, start: int)
    requires RowsWide(rows) && 0 <= c < MERGE_COLUMNS && 0 <= i < |rows|
    requires Tracked(rows, c, i, current, start)
    ensures current != Some(rows[i][c]) ==> Tracked(rows, c, i + 1, Some(rows[i][c]), i + FIRST_DATA_ROW)
    ensures current == Some(rows[i][c]) ==> Tracked(rows, c, i + 1, current, start)
  {
  }

  /** One pass of the row loop: compares data row `i` with the tracked value of each merged
      column, records the merge of a closed run of two or more rows, and restarts the run. */
  method ScanRow(rows: seq<Row>, i: int, current: array<Option<Cell>>, start: array<int>, merges: set<Merge>)
    returns (merged: set<Merge>)
    requires RowsWide(rows) && 0 <= i < |rows|
    requires current.Length == MERGE_COLUMNS && start.Length == MERGE_COLUMNS
    requires forall c :: 0 <= c < MERGE_COLUMNS ==> Tracked(rows, c, i, current[c], start[c])
    requires forall m :: m in merges <==> IsMergedRange(rows, m) && m.lastRow <= i
    modifies current, start
    ensures forall c :: 0 <= c < MERGE_COLUMNS ==> Tracked(rows, c, i + 1, current[c], start[c])
    ensures forall m :: m in merged <==> IsMergedRange(rows, m) && m.lastRow <= i + 1
  {
    merged := merges;
    var idx := 0;
    while idx < MERGE_COLUMNS
      invariant 0 <= idx <= MERGE_COLUMNS
      invariant forall c :: 0 <= c < idx ==> Tracked(rows, c, i + 1, current[c], start[c])
      invariant forall c :: idx <= c < MERGE_COLUMNS ==> Tracked(rows, c, i, current[c], start[c])
      invariant forall m :: m in merged <==>
        IsMergedRange(rows, m) && (m.lastRow <= i || (m.lastRow == i + 1 && m.column <= idx))
    {
      merged := ScanCell(rows, i, idx, current, start, merged);
      idx := idx + 1;
    }
  }

  /** One cell of the row loop: compares data row `i` in column `c` with the tracked value,
      records the merge of a closed run of two or more rows, and restarts the run. */
  method ScanCell(rows: seq<Row>, i: int, c: int, current: array<Option<Cell>>, start: array<int>, merges: set<Merge>)
    returns (merged: set<Merge>)
    requires RowsWide(rows) && 0 <= i < |rows| && 0 <= c < MERGE_COLUMNS
    requires current.Length == MERGE_COLUMNS && start.Length == MERGE_COLUMNS
    requires Tracked(rows, c, i, current[c], start[c])
    requires forall m :: m in merges <==>
      IsMergedRange(rows, m) && (m.lastRow <= i || (m.lastRow == i + 1 && m.column <= c))
    modifies current, start
    ensures Tracked(rows, c, i + 1, current[c], start[c])
    ensures forall k :: 0 <= k < MERGE_COLUMNS && k != c ==> current[k] == old(current[k]) && start[k] == old(start[k])
    ensures forall m :: m in merged <==>
      IsMergedRange(rows, m) && (m.lastRow <= i || (m.lastRow == i + 1 && m.column <= c + 1))
  {
    merged := merges;
    var sheetRow := i + FIRST_DATA_ROW;
    ghost var cur0, start0 := current[c], start[c];
    TrackedStep(rows, c, i, cur0, start0);
    if current[c] != Some(rows[i][c]) {
      if sheetRow - 1 > start[c] {
        merged := merged + {Merge(start[c], sheetRow - 1, c + 1)};
      }
      current[c] := Some(rows[i][c]);
      start[c] := sheetRow;
    }
    forall m
      ensures m in merged <==>
        IsMergedRange(rows, m) && (m.lastRow <= i || (m.lastRow == i + 1 && m.column <= c + 1))
    {
      if m.lastRow == i + 1 && m.column == c + 1 {
        ClosedRun(rows, c, i, cur0, start0, m);
      }
    }
  }

  /** The closing pass: merges the run still open in each column when it spans two or
      more rows. */
  method CloseRuns(rows: seq<Row>, current: array<Option<Cell>>, start: array<int>, merges: set<Merge>)
    returns (merged: set<Merge>)
    requires RowsWide(rows)
    requires current.Length == MERGE_COLUMNS && start.Length == MERGE_COLUMNS
    requires forall c :: 0 <= c < MERGE_COLUMNS ==> Tracked(rows, c, |rows|, current[c], start[c])
    requires forall m :: m in merges <==> IsMergedRange(rows, m) && m.lastRow <= |rows|
    ensures forall m :: m in merged <==> IsMergedRange(rows, m)
  {
    merged := merges;
    var idx := 0;
    while idx < MERGE_COLUMNS
      invariant 0 <= idx <= MERGE_COLUMNS
      invariant forall m :: m in merged <==>
        IsMergedRange(rows, m) && (m.lastRow <= |rows| || (m.lastRow == |rows| + 1 && m.column <= idx))
    {
      if start[idx] < |rows| + 1 {
        merged := merged + {Merge(start[idx], |rows| + 1, idx + 1)};
      }
      forall m
        ensures m in merged <==>
          IsMergedRange(rows, m) && (m.lastRow <= |rows| || (m.lastRow == |rows| + 1 && m.column <= idx + 1))
      {
        if m.lastRow == |rows| + 1 && m.column == idx + 1 {
          FinalRun(rows, idx, current[idx], start[idx], m);
        }
      }
      idx := idx + 1;
    }
  }

  /** The merges of one sheet: walks the data rows keeping, per merged column, the last
      value and the row its run began on; a change of value closes the run, merged when it
      spans two or more rows; after the last row the open runs are closed the same way. */
  method MergeRanges(rows: seq<Row>) returns (merges: set<Merge>)
    requires RowsWide(rows)
    ensures forall m :: m in merges <==> IsMergedRange(rows, m)
  {
    var current := new Option<Cell>[MERGE_COLUMNS](_ => None);
    var start := new int[MERGE_COLUMNS](_ => FIRST_DATA_ROW);
    merges := {};
    var i := 0;
    while i < |rows|
      invariant 0 <= i <= |rows|
      invariant forall c :: 0 <= c < MERGE_COLUMNS ==> Tracked(rows, c, i, current[c], start[c])
      invariant forall m :: m in merges <==> IsMergedRange(rows, m) && m.lastRow <= i
    {
      merges := ScanRow(rows, i, current, start, merges);
      i := i + 1;
    }
    merges := CloseRuns(rows, current, start, merges);
  }

  // ---- The workbook ----

  /** A worksheet: its title, its header row, its data rows and its merged ranges. */
  datatype Sheet = Sheet(title: string, headers: seq<string>, rows: seq<Row>, merges: set<Merge>)

  /** The sheet a fresh workbook starts with; it stays alone and empty when no
      university is exported. */
  const DEFAULT_SHEET := Sheet("Sheet", [], [], {})

  /** The sheet of one university: its name as title, the headers, its rows, and exactly
      the maximal-run merges of those rows. */
  ghost predicate SheetOf(u: UniversityNode, sheet: Sheet) {
    && sheet.title == u.university.name
    && sheet.headers == HEADERS
    && sheet.rows == DirectionRows(u.directions)
    && forall m :: m in sheet.merges <==> IsMergedRange(sheet.rows, m)
  }

  /** The characters openpyxl refuses in a sheet title. */
  const INVALID_TITLE_CHARS := "\\/*?:[]"

  /** Does openpyxl accept the name as a sheet title? The title setter refuses the
      characters above, and an empty title; a sheet made by `create_sheet` turns an empty
      title into its default one, so only the workbook's first sheet can meet it. */
  predicate TitleAccepted(name: string, first: bool) {
    && (first ==> name != [])
    && forall i :: 0 <= i < |name| ==> name[i] !in INVALID_TITLE_CHARS
  }

  /** The characters openpyxl refuses in the text of a cell: code points 0 to 8, 11, 12
      and 14 to 31. */
  predicate IllegalCellChar(c: char) {
    var n := c as int;
    0 <= n <= 8 || n == 11 || n == 12 || 14 <= n <= 31
  }

  /** Does openpyxl accept the cell? Numbers always; text without an illegal character. */
  predicate CellAccepted(c: Cell) {
    c.Number? || forall k :: 0 <= k < |c.text| ==> !IllegalCellChar(c.text[k])
  }

  predicate RowAccepted(row: Row) {
    forall j :: 0 <= j < |row| ==> CellAccepted(row[j])
  }

  predicate RowsAccepted(rows: seq<Row>) {
    forall i :: 0 <= i < |rows| ==> RowAccepted(rows[i])
  }

  /** The `ws.append(r)` loop: it goes through the rows in order and stops, with an error
      the handler does not catch, at the first cell openpyxl refuses. */
  method AppendRows(rows: seq<Row>) returns (ok: bool)
    ensures ok <==> RowsAccepted(rows)
    ensures !ok ==> exists i :: 0 <= i < |rows| && !RowAccepted(rows[i]) && RowsAccepted(rows[..i])
  {
    var i := 0;
    while i < |rows|
      invariant 0 <= i <= |rows|
      invariant RowsAccepted(rows[..i])
    {
      if !RowAccepted(rows[i]) {
        return false;
      }
      assert rows[..i + 1] == rows[..i] + [rows[i]];
      i := i + 1;
    }
    assert rows[..i] == rows;
    ok := true;
  }

  /** Does openpyxl accept a university's sheet: its name as the title, and every cell of
      its rows? */
  predicate SheetAccepted(u: UniversityNode, first: bool) {
    TitleAccepted(u.university.name, first) && RowsAccepted(DirectionRows(u.directions))
  }

  /** Every selected university's sheet is accepted. */
  predicate SheetsAccepted(selected: seq<UniversityNode>) {
    forall i :: 0 <= i < |selected| ==> SheetAccepted(selected[i], i == 0)
  }

  /** One pass of the university loop: the title, then the rows, then the merges of one
      sheet. openpyxl may refuse the title or a cell with an error the handler does not
      catch (500). */
  method BuildSheet(u: UniversityNode, first: bool) returns (r: Result<Sheet>)
    ensures r.Ok? <==> SheetAccepted(u, first)
    ensures r.Err? ==> r.error == InternalError
    ensures r.Ok? ==> SheetOf(u, r.value)
  {
    if !TitleAccepted(u.university.name, first) {
      return Err(InternalError);
    }
    var rows := BuildRows(u);
    var ok := AppendRows(rows);
    if !ok {
      return Err(InternalError);
    }
    var merges := MergeRanges(rows);
    r := Ok(Sheet(u.university.name, HEADERS, rows, merges));
  }

  /** `GET /statistics/export`: 403 unless the caller is an owner or a superadmin; then one
      sheet per selected university, in order, titled with its name; 500 when openpyxl
      refuses one of the names as a title or the text of one of the cells. */
  method Export(caller: Account, universities: seq<UniversityNode>) returns (r: Result<seq<Sheet>>)
    ensures RequireOwnerOrSuperadmin(caller).Err? ==> r == Err(Forbidden)
    ensures r.Ok? <==>
      RequireOwnerOrSuperadmin(caller).Ok? && SheetsAccepted(Selected(caller, universities))
    ensures r.Err? && RequireOwnerOrSuperadmin(caller).Ok? ==> r.error == InternalError
    ensures r.Ok? ==>
      var selected := Selected(caller, universities);
      && (selected == [] ==> r.value == [DEFAULT_SHEET])
      && (selected != [] ==>
            && |r.value| == |selected|
            && forall i :: 0 <= i < |selected| ==> SheetOf(selected[i], r.value[i]))
  {
    var guard := RequireOwnerOrSuperadmin(caller);
    if guard.Err? {
      return Err(guard.error);
    }
    var selected := Selected(caller, universities);
    if selected == [] {
      return Ok([DEFAULT_SHEET]);
    }
    r := BuildSheets(selected);
  }

  /** Each sheet is the sheet of the university at its position. */
  ghost predicate SheetsOf(us: seq<UniversityNode>, sheets: seq<Sheet>) {
    |sheets| == |us| && forall j :: 0 <= j < |us| ==> SheetOf(us[j], sheets[j])
  }

  lemma SheetsOfAppend(us: seq<UniversityNode>, sheets: seq<Sheet>, u: UniversityNode, sheet: Sheet)
    requires SheetsOf(us, sheets) && SheetOf(u, sheet)
    ensures SheetsOf(us + [u], sheets + [sheet])
  {
    var us', sheets' := us + [u], sheets + [sheet];
    forall j | 0 <= j < |us'|
      ensures SheetOf(us'[j], sheets'[j])
    {
      if j < |us| {
        assert us'[j] == us[j] && sheets'[j] == sheets[j];
      }
    }
  }

  lemma SheetsAcceptedAppend(us: seq<UniversityNode>, u: UniversityNode)
    requires SheetsAccepted(us) && SheetAccepted(u, |us| == 0)
    ensures SheetsAccepted(us + [u])
  {
    var us' := us + [u];
    forall j | 0 <= j < |us'|
      ensures SheetAccepted(us'[j], j == 0)
    {
      if j < |us| {
        assert us'[j] == us[j];
      }
    }
  }

  /** A refused sheet at position `i` makes the whole selection refused. */
  lemma SheetRefused(us: seq<UniversityNode>, i: int)
    requires 0 <= i < |us| && !SheetAccepted(us[i], i == 0)
    ensures !SheetsAccepted(us)
  {
  }

  /** The university loop: one sheet per university, in order, stopping at the first
      refused sheet. */
  method BuildSheets(selected: seq<UniversityNode>) returns (r: Result<seq<Sheet>>)
    ensures r.Ok? <==> SheetsAccepted(selected)
    ensures r.Err? ==> r.error == InternalError
    ensures r.Ok? ==>
      && |r.value| == |selected|
      && forall i :: 0 <= i < |selected| ==> SheetOf(selected[i], r.value[i])
  {
    var sheets := [];
    var i := 0;
    while i < |selected|
      invariant 0 <= i <= |selected|
      invariant SheetsAccepted(selected[..i])
      invariant SheetsOf(selected[..i], sheets)
    {
      var next := AddSheet(selected, i, sheets);
      if next.Err? {
        return Err(next.error);
      }
      sheets := next.value;
      i := i + 1;
    }
    assert selected[..i] == selected;
    r := Ok(sheets);
  }

  /** One pass of the university loop: the sheet of the `i`-th university appended to
      those before it, or the error that ends the export. */
  method AddSheet(selected: seq<UniversityNode>, i: int, sheets: seq<Sheet>) returns (r: Result<seq<Sheet>>)
    requires 0 <= i < |selected|
    requires SheetsAccepted(selected[..i]) && SheetsOf(selected[..i], sheets)
    ensures r.Err? ==> r.error == InternalError && !SheetsAccepted(selected)
    ensures r.Ok? ==> SheetsAccepted(selected[..i + 1]) && SheetsOf(selected[..i + 1], r.value)
  {
    var sheet := BuildSheet(selected[i], i == 0);
    if sheet.Err? {
      SheetRefused(selected, i);
      return Err(sheet.error);
    }
    assert selected[..i + 1] == selected[..i] + [selected[i]];
    SheetsAcceptedAppend(selected[..i], selected[i]);
    SheetsOfAppend(selected[..i], sheets, selected[i], sheet.value);
    r := Ok(sheets + [sheet.value]);
  }
}

=== FILE: store.dfy ===
/** The relational store as in-memory tables: one record type per table, the patch
    types that partial updates send, the authenticated caller, and the class `Db`
    whose map-valued fields are the tables the handlers read and write. */
module Store {
  import opened Common

  datatype University = University(
    name: string,
    description: Option<string>,
    address: Option<string>,
    phone: Option<string>,
    email: Option<string>,
    location: Option<string>)

  datatype Direction = Direction(
    number: string,
    name: string,
    course: int,
    studentCount: int,
    universityId: Option<int>)

  datatype Kafedra = Kafedra(name: string, universityId: Option<int>)

  /** A subject; `directionIds` is its side of the subject/direction link table. */
  datatype Subject = Subject(
    name: string,
    kafedraId: Option<int>,
    universityId: Option<int>,
    directionIds: set<int>)

  datatype Language = Uzbek | Russian | Karakalpak | English {
    function Value(): string {
      match this
      case Uzbek => "uzbek"
      case Russian => "russian"
      case Karakalpak => "karakalpak"
      case English => "english"
    }
  }

  datatype FontType = Kirill | Latin | EnglishFont {
    function Value(): string {
      match this
      case Kirill => "kirill"
      case Latin => "latin"
      case EnglishFont => "english"
    }
  }

  datatype Condition = Actual | Unactual

  datatype UsageStatus = Use | Unused

  datatype Literature = Literature(
    title: string,
    kind: string,
    author: Option<string>,
    publisher: Option<string>,
    language: Language,
    fontType: FontType,
    year: int,
    printedCount: Option<int>,
    condition: Condition,
    usageStatus: UsageStatus,
    image: Option<string>,
    filePath: Option<string>,
    subjectId: Option<int>,
    universityId: Option<int>)

  /** A news item; `tagIds` lists its rows of the news/tag link table, in order. */
  datatype News = News(
    title: string,
    description: string,
    img: Option<string>,
    date: int,
    universityId: Option<int>,
    tagIds: seq<int>)

  datatype Tag = Tag(name: string)

  datatype Admin = Admin(
    email: string,
    hashedPassword: string,
    role: Role,
    universityId: Option<int>)

  datatype User = User(
    firstName: Option<string>,
    lastName: Option<string>,
    email: string,
    hashedPassword: string,
    role: Role,
    universityId: Option<int>)

  /** The authenticated caller: a row of the admin table or of the user table. */
  datatype Account = AdminAccount(id: int, admin: Admin) | UserAccount(id: int, user: User) {
    function CallerRole(): Role {
      match this
      case AdminAccount(_, a) => a.role
      case UserAccount(_, u) => u.role
    }

    function CallerUniversity(): Option<int> {
      match this
      case AdminAccount(_, a) => a.universityId
      case UserAccount(_, u) => u.universityId
    }

    function Email(): string {
      match this
      case AdminAccount(_, a) => a.email
      case UserAccount(_, u) => u.email
    }

    function HashedPassword(): string {
      match this
      case AdminAccount(_, a) => a.hashedPassword
      case UserAccount(_, u) => u.hashedPassword
    }
  }

  // Partial updates. A field is `Some` exactly when the request sent it; for a
  // nullable column the sent value is itself optional (an explicit null clears it).

  datatype UniversityPatch = UniversityPatch(
    name: Option<string>,
    description: Option<Option<string>>,
    address: Option<Option<string>>,
    phone: Option<Option<string>>,
    email: Option<Option<string>>,
    location: Option<Option<string>>)

  datatype DirectionPatch = DirectionPatch(
    number: Option<string>,
    name: Option<string>,
    course: Option<int>,
    studentCount: Option<int>,
    universityId: Option<Option<int>>)

  datatype KafedraPatch = KafedraPatch(name: Option<string>, universityId: Option<Option<int>>)

  /** `directionIds` is accepted but lands on an attribute the mapping does not persist. */
  datatype SubjectPatch = SubjectPatch(
    name: Option<string>,
    kafedraId: Option<Option<int>>,
    directionIds: Option<seq<int>>,
    universityId: Option<Option<int>>)

  datatype LiteraturePatch = LiteraturePatch(
    title: Option<string>,
    kind: Option<string>,
    author: Option<Option<string>>,
    publisher: Option<Option<string>>,
    language: Option<Language>,
    fontType: Option<FontType>,
    year: Option<int>,
    printedCount: Option<Option<int>>,
    condition: Option<Condition>,
    usageStatus: Option<UsageStatus>,
    image: Option<Option<string>>,
    filePath: Option<Option<string>>,
    subjectId: Option<Option<int>>,
    universityId: Option<Option<int>>)

  function PatchUniversity(u: University, p: UniversityPatch): University {
    University(
      Pick(p.name, u.name), Pick(p.description, u.description), Pick(p.address, u.address),
      Pick(p.phone, u.phone), Pick(p.email, u.email), Pick(p.location, u.location))
  }

  function PatchDirection(d: Direction, p: DirectionPatch): Direction {
    Direction(
      Pick(p.number, d.number), Pick(p.name, d.name), Pick(p.course, d.course),
      Pick(p.studentCount, d.studentCount), Pick(p.universityId, d.universityId))
  }

  function PatchKafedra(k: Kafedra, p: KafedraPatch): Kafedra {
    Kafedra(Pick(p.name, k.name), Pick(p.universityId, k.universityId))
  }

  function PatchSubject(s: Subject, p: SubjectPatch): Subject {
    Subject(
      Pick(p.name, s.name), Pick(p.kafedraId, s.kafedraId),
      Pick(p.universityId, s.universityId), s.directionIds)
  }

  function PatchLiterature(l: Literature, p: LiteraturePatch): Literature {
    Literature(
      Pick(p.title, l.title), Pick(p.kind, l.kind), Pick(p.author, l.author),
      Pick(p.publisher, l.publisher), Pick(p.language, l.language),
      Pick(p.fontType, l.fontType), Pick(p.year, l.year),
      Pick(p.printedCount, l.printedCount), Pick(p.condition, l.condition),
      Pick(p.usageStatus, l.usageStatus), Pick(p.image, l.image),
      Pick(p.filePath, l.filePath), Pick(p.subjectId, l.subjectId),
      Pick(p.universityId, l.universityId))
  }

  /** Every key of `m` lies below `bound`, so `bound` is a fresh key. */
  ghost predicate KeysBelow<T>(m: map<int, T>, bound: int) {
    forall k :: k in m ==> k < bound
  }

  /** The database: one map per table, keyed by primary key. */
  class Db {
    var universities: map<int, University>
    var directions: map<int, Direction>
    var kafedras: map<int, Kafedra>
    var subjects: map<int, Subject>
    var literature: map<int, Literature>
    var news: map<int, News>
    var tags: map<int, Tag>
    var admins: map<int, Admin>
    var users: map<int, User>
    /** The next primary key the store hands out. */
    var nextId: int

    ghost predicate Valid()
      reads this
    {
      && KeysBelow(universities, nextId) && KeysBelow(directions, nextId)
      && KeysBelow(kafedras, nextId) && KeysBelow(subjects, nextId)
      && KeysBelow(literature, nextId) && KeysBelow(news, nextId)
      && KeysBelow(tags, nextId) && KeysBelow(admins, nextId)
      && KeysBelow(users, nextId)
    }

    constructor ()
      ensures Valid()
      ensures universities == map[] && directions == map[] && kafedras == map[]
      ensures subjects == map[] && literature == map[] && news == map[]
      ensures tags == map[] && admins == map[] && users == map[]
    {
      universities, directions, kafedras := map[], map[], map[];
      subjects, literature, news := map[], map[], map[];
      tags, admins, users := map[], map[], map[];
      nextId := 1;
    }

    /** Hands out a primary key that no table uses yet. */
    method NewId() returns (id: int)
      requires Valid()
      modifies this`nextId
      ensures Valid()
      ensures id == old(nextId) && nextId == id + 1
    {
      id := nextId;
      nextId := nextId + 1;
    }
  }
}

=== FILE: subject.dfy ===
/** The `/subjects` router: all-or-nothing bulk creation with per-item scoping, the
    direction-membership count and the per-university name check; update; delete. */
module SubjectRouter {
  import opened Common
  import opened Store
  import opened Policy

  datatype SubjectCreate = SubjectCreate(
    name: string,
    kafedraId: int,
    directionIds: seq<int>,
    universityId: int)

  /** Largest batch the bulk endpoint accepts. */
  const BULK_LIMIT := 10

  function UniversityOfSubject(s: Subject): Option<int> { s.universityId }

  /** The rows the direction lookup returns: listed directions that belong to `uid`. */
  function MatchedDirections(directions: map<int, Direction>, ids: seq<int>, uid: Option<int>): set<int> {
    set id | id in ids && id in directions && directions[id].universityId == uid
  }

  /** Every listed direction exists and belongs to `uid`, and none is listed twice. */
  predicate DirectionsValid(directions: map<int, Direction>, ids: seq<int>, uid: Option<int>) {
    && Distinct(ids)
    && forall i :: 0 <= i < |ids| ==> ids[i] in directions && directions[ids[i]].universityId == uid
  }

  /** Is the name already used at university `uid`, by a stored subject or by one accepted
      earlier in the same batch? The session flushes pending rows before each lookup, so
      the earlier items of a batch are visible to the later ones. The kafedra plays no part. */
  predicate NameTaken(subjects: map<int, Subject>, earlier: seq<Subject>, name: string, uid: Option<int>) {
    || (exists k :: k in subjects && subjects[k].name == name && subjects[k].universityId == uid)
    || (exists j :: 0 <= j < |earlier| && earlier[j].name == name && earlier[j].universityId == uid)
  }

  /** No two stored subjects share both name and university. */
  predicate NamesUnique(subjects: map<int, Subject>) {
    forall k1, k2 :: k1 in subjects && k2 in subjects && k1 != k2 ==>
      subjects[k1].name != subjects[k2].name || subjects[k1].universityId != subjects[k2].universityId
  }

  /** Appending one id adds it to the lookup result exactly when it is a direction of `uid`. */
  lemma MatchedAppend(directions: map<int, Direction>, ids: seq<int>, x: int, uid: Option<int>)
    ensures MatchedDirections(directions, ids + [x], uid)
         == MatchedDirections(directions, ids, uid)
            + (if x in directions && directions[x].universityId == uid then {x} else {})
  {
  }

  /** Appending one id keeps the list valid exactly when the id is a new direction of `uid`. */
  lemma ValidAppend(directions: map<int, Direction>, ids: seq<int>, x: int, uid: Option<int>)
    ensures DirectionsValid(directions, ids + [x], uid)
        <==> DirectionsValid(directions, ids, uid) && x in directions && directions[x].universityId == uid && x !in ids
  {
    var all := ids + [x];
    assert forall i :: 0 <= i < |ids| ==> all[i] == ids[i];
    if DirectionsValid(directions, all, uid) {
      assert all[|ids|] == x;
      assert Distinct(ids) by {
        forall i, j | 0 <= i < j < |ids| ensures ids[i] != ids[j] {
          assert all[i] != all[j];
        }
      }
    }
    if DirectionsValid(directions, ids, uid) && x in directions && directions[x].universityId == uid && x !in ids {
      forall i, j | 0 <= i < j < |all| ensures all[i] != all[j] {
        if j == |ids| { assert all[i] in ids; }
      }
      forall i | 0 <= i < |all| ensures all[i] in directions && directions[all[i]].universityId == uid {
        if i < |ids| { assert all[i] == ids[i]; }
      }
    }
  }

  /** The count comparison of the source (`len(directions) != len(direction_ids)`) accepts
      exactly the lists of distinct directions of the item's university. */
  lemma {:induction false} MatchedCountIsLength(directions: map<int, Direction>, ids: seq<int>, uid: Option<int>)
    ensures |MatchedDirections(directions, ids, uid)| <= |ids|
    ensures |MatchedDirections(directions, ids, uid)| == |ids| <==> DirectionsValid(directions, ids, uid)
  {
    if ids == [] {
      assert MatchedDirections(directions, ids, uid) == {};
    } else {
      var n := |ids| - 1;
      MatchedCountIsLength(directions, ids[..n], uid);
      MatchedCountStep(directions, ids[..n], ids[n], uid);
      assert ids == ids[..n] + [ids[n]];
    }
  }

  /** The inductive step of `MatchedCountIsLength`: one more listed id. */
  lemma MatchedCountStep(directions: map<int, Direction>, prefix: seq<int>, x: int, uid: Option<int>)
    requires |MatchedDirections(directions, prefix, uid)| <= |prefix|
    requires |MatchedDirections(directions, prefix, uid)| == |prefix| <==> DirectionsValid(directions, prefix, uid)
    ensures |MatchedDirections(directions, prefix + [x], uid)| <= |prefix + [x]|
    ensures |MatchedDirections(directions, prefix + [x], uid)| == |prefix + [x]| <==> DirectionsValid(directions, prefix + [x], uid)
  {
    ValidAppend(directions, prefix, x, uid);
    MatchedAppend(directions, prefix, x, uid);
    var before := MatchedDirections(directions, prefix, uid);
    var after := MatchedDirections(directions, prefix + [x], uid);
    if x in directions && directions[x].universityId == uid && x !in prefix {
      NewMatchCounts(before, after, x);
    } else {
      assert x in directions && directions[x].universityId == uid ==> x in before;
      assert after == before;
    }
  }

  /** Adding an id the set lacks grows it by one. */
  lemma NewMatchCounts(before: set<int>, after: set<int>, x: int)
    requires after == before + {x} && x !in before
    ensures |after| == |before| + 1
  {
  }

  /** One item of a bulk request, after the subjects `earlier` of the same batch have been
      accepted: scope (400/403), then directions (404), then the name (400). On success,
      the subject that will be stored. */
  function CheckItem(
    directions: map<int, Direction>, subjects: map<int, Subject>, earlier: seq<Subject>,
    caller: Account, item: SubjectCreate): (r: Result<Subject>)
    ensures var scope := CreateScope(caller, Some(item.universityId));
      && (scope.Err? ==> r == Err(scope.error))
      && (scope.Ok? && !DirectionsValid(directions, item.directionIds, scope.value) ==> r == Err(NotFound))
      && ((scope.Ok? && DirectionsValid(directions, item.directionIds, scope.value)
            && NameTaken(subjects, earlier, item.name, scope.value)) ==> r == Err(BadRequest))
      && (r.Ok? <==> scope.Ok? && DirectionsValid(directions, item.directionIds, scope.value)
                     && !NameTaken(subjects, earlier, item.name, scope.value))
      && (r.Ok? ==> r.value == Subject(item.name, Some(item.kafedraId), scope.value, set id | id in item.directionIds))
  {
    match CreateScope(caller, Some(item.universityId))
    case Err(e) => Err(e)
    case Ok(uid) =>
      var matched := MatchedDirections(directions, item.directionIds, uid);
      MatchedCountIsLength(directions, item.directionIds, uid);
      if |matched| != |item.directionIds| then Err(NotFound)
      else if NameTaken(subjects, earlier, item.name, uid) then Err(BadRequest)
      else
        assert matched == set id | id in item.directionIds;
        Ok(Subject(item.name, Some(item.kafedraId), uid, matched))
  }

  /** The checking pass of a bulk create over `items`, after `earlier` was accepted: the
      items are judged in order, each one seeing the subjects accepted before it, and the
      first failing item ends the pass with its error. */
  function CheckFrom(
    directions: map<int, Direction>, subjects: map<int, Subject>, caller: Account,
    items: seq<SubjectCreate>, earlier: seq<Subject>): (r: Result<seq<Subject>>)
    ensures r.Ok? ==> |r.value| == |earlier| + |items| && r.value[..|earlier|] == earlier
    decreases |items|
  {
    if items == [] then Ok(earlier)
    else match CheckItem(directions, subjects, earlier, caller, items[0])
      case Err(e) => Err(e)
      case Ok(s) => CheckFrom(directions, subjects, caller, items[1..], earlier + [s])
  }

  /** A successful pass accepted every item, each against the subjects accepted before it. */
  lemma {:induction false} CheckFromItems(
    directions: map<int, Direction>, subjects: map<int, Subject>, caller: Account,
    items: seq<SubjectCreate>, earlier: seq<Subject>)
    requires CheckFrom(directions, subjects, caller, items, earlier).Ok?
    ensures var ds := CheckFrom(directions, subjects, caller, items, earlier).value;
      forall i :: 0 <= i < |items| ==>
        CheckItem(directions, subjects, ds[..|earlier| + i], caller, items[i]) == Ok(ds[|earlier| + i])
  {
    if items != [] {
      var s := CheckItem(directions, subjects, earlier, caller, items[0]).value;
      var ds := CheckFrom(directions, subjects, caller, items, earlier).value;
      assert ds == CheckFrom(directions, subjects, caller, items[1..], earlier + [s]).value;
      CheckFromItems(directions, subjects, caller, items[1..], earlier + [s]);
      assert ds[..|earlier| + 1] == earlier + [s];
      assert ds[..|earlier|] == earlier;
      forall i | 1 <= i < |items|
        ensures CheckItem(directions, subjects, ds[..|earlier| + i], caller, items[i]) == Ok(ds[|earlier| + i])
      {
        assert items[1..][i - 1] == items[i];
      }
    }
  }

  /** A failed pass failed at some item that every item before it passed: its error is the
      error of the whole pass. */
  lemma {:induction false} FirstFailureDecides(
    directions: map<int, Direction>, subjects: map<int, Subject>, caller: Account,
    items: seq<SubjectCreate>, earlier: seq<Subject>)
    requires CheckFrom(directions, subjects, caller, items, earlier).Err?
    ensures exists i :: (0 <= i < |items|
      && CheckFrom(directions, subjects, caller, items[..i], earlier).Ok?
      && CheckItem(directions, subjects, CheckFrom(directions, subjects, caller, items[..i], earlier).value, caller, items[i])
         == Err(CheckFrom(directions, subjects, caller, items, earlier).error))
  {
    var first := CheckItem(directions, subjects, earlier, caller, items[0]);
    if first.Err? {
      assert items[..0] == [];
      assert CheckFrom(directions, subjects, caller, items[..0], earlier) == Ok(earlier);
    } else {
      var rest := items[1..];
      var more := earlier + [first.value];
      FirstFailureDecides(directions, subjects, caller, rest, more);
      var i :| 0 <= i < |rest|
        && CheckFrom(directions, subjects, caller, rest[..i], more).Ok?
        && CheckItem(directions, subjects, CheckFrom(directions, subjects, caller, rest[..i], more).value, caller, rest[i])
           == Err(CheckFrom(directions, subjects, caller, rest, more).error);
      var prefix := items[..i + 1];
      assert prefix[0] == items[0] && prefix[1..] == rest[..i];
      assert CheckFrom(directions, subjects, caller, prefix, earlier) == CheckFrom(directions, subjects, caller, rest[..i], more);
      assert rest[i] == items[i + 1];
    }
  }

  /** No subject of the batch repeats the name and university of a stored subject or of a
      subject before it in the batch. */
  predicate FreshBatch(subjects: map<int, Subject>, ds: seq<Subject>) {
    forall j :: 0 <= j < |ds| ==> !NameTaken(subjects, ds[..j], ds[j].name, ds[j].universityId)
  }

  /** Every batch the checking pass accepts is fresh. */
  lemma CheckedBatchIsFresh(directions: map<int, Direction>, subjects: map<int, Subject>, caller: Account, items: seq<SubjectCreate>)
    requires CheckFrom(directions, subjects, caller, items, []).Ok?
    ensures FreshBatch(subjects, CheckFrom(directions, subjects, caller, items, []).value)
  {
    var ds := CheckFrom(directions, subjects, caller, items, []).value;
    CheckFromItems(directions, subjects, caller, items, []);
    forall j | 0 <= j < |ds| ensures !NameTaken(subjects, ds[..j], ds[j].name, ds[j].universityId) {
      assert CheckItem(directions, subjects, ds[..0 + j], caller, items[j]) == Ok(ds[0 + j]);
    }
  }

  /** The checking pass, item by item. */
  method CheckAll(directions: map<int, Direction>, subjects: map<int, Subject>, caller: Account, items: seq<SubjectCreate>)
    returns (r: Result<seq<Subject>>)
    ensures r == CheckFrom(directions, subjects, caller, items, [])
  {
    var drafts: seq<Subject> := [];
    var i := 0;
    assert items[0..] == items;
    while i < |items|
      invariant 0 <= i <= |items|
      invariant CheckFrom(directions, subjects, caller, items, []) == CheckFrom(directions, subjects, caller, items[i..], drafts)
    {
      assert items[i..][0] == items[i] && items[i..][1..] == items[i + 1..];
      var checked := CheckItem(directions, subjects, drafts, caller, items[i]);
      if checked.Err? {
        return Err(checked.error);
      }
      drafts := drafts + [checked.value];
      i := i + 1;
    }
    assert items[i..] == [];
    r := Ok(drafts);
  }

  /** The commit pass: each checked subject is stored under a fresh id, in order. */
  method InsertAll(db: Db, drafts: seq<Subject>) returns (ids: seq<int>)
    requires db.Valid()
    modifies db`subjects, db`nextId
    ensures db.Valid()
    ensures |ids| == |drafts| && Distinct(ids)
    ensures forall j :: 0 <= j < |ids| ==> ids[j] !in old(db.subjects) && ids[j] in db.subjects && db.subjects[ids[j]] == drafts[j]
    ensures forall k :: k in db.subjects <==> k in old(db.subjects) || k in ids
    ensures forall k :: k in old(db.subjects) ==> db.subjects[k] == old(db.subjects)[k]
  {
    ids := [];
    var k := 0;
    while k < |drafts|
      invariant 0 <= k <= |drafts|
      invariant db.Valid()
      invariant |ids| == k
      invariant db.nextId == old(db.nextId) + k
      invariant forall j :: 0 <= j < k ==> ids[j] == old(db.nextId) + j
      invariant forall j :: 0 <= j < k ==> ids[j] in db.subjects && db.subjects[ids[j]] == drafts[j]
      invariant forall key :: key in db.subjects <==> key in old(db.subjects) || key in ids
      invariant forall key :: key in old(db.subjects) ==> db.subjects[key] == old(db.subjects)[key]
    {
      var id := db.NewId();
      db.subjects := db.subjects[id := drafts[k]];
      ids := ids + [id];
      k := k + 1;
    }
  }

  /** Storing a fresh batch under new ids keeps name and university unique together. */
  lemma InsertKeepsNamesUnique(before: map<int, Subject>, after: map<int, Subject>, ids: seq<int>, ds: seq<Subject>)
    requires NamesUnique(before) && FreshBatch(before, ds)
    requires |ids| == |ds|
    requires forall j :: 0 <= j < |ids| ==> ids[j] !in before && ids[j] in after && after[ids[j]] == ds[j]
    requires forall k :: k in after <==> k in before || k in ids
    requires forall k :: k in before ==> after[k] == before[k]
    ensures NamesUnique(after)
  {
    forall k1, k2 | k1 in after && k2 in after && k1 != k2
      ensures after[k1].name != after[k2].name || after[k1].universityId != after[k2].universityId
    {
      if k1 !in before && k2 !in before {
        var i :| 0 <= i < |ids| && ids[i] == k1;
        var j :| 0 <= j < |ids| && ids[j] == k2;
        if i < j {
          assert ds[..j][i] == ds[i];
        } else {
          assert ds[..i][j] == ds[j];
        }
      } else if k1 !in before {
        var i :| 0 <= i < |ids| && ids[i] == k1;
        assert !NameTaken(before, ds[..i], ds[i].name, ds[i].universityId);
      } else if k2 !in before {
        var j :| 0 <= j < |ids| && ids[j] == k2;
        assert !NameTaken(before, ds[..j], ds[j].name, ds[j].universityId);
      }
    }
  }

  /** Creates every item or none. More than `BULK_LIMIT` items fail with 400 before any
      item is looked at; otherwise the checking pass decides, and on success each accepted
      subject is stored under a fresh id, in input order. */
  method CreateSubjectsBulk(db: Db, caller: Account, items: seq<SubjectCreate>) returns (r: Result<seq<int>>)
    requires db.Valid()
    modifies db`subjects, db`nextId
    ensures db.Valid()
    ensures |items| > BULK_LIMIT ==> r == Err(BadRequest)
    ensures var pass := CheckFrom(db.directions, old(db.subjects), caller, items, []);
      && (r.Ok? <==> |items| <= BULK_LIMIT && pass.Ok?)
      && (r.Err? && |items| <= BULK_LIMIT ==> r.error == pass.error)
      && (r.Ok? ==>
            && |r.value| == |items|
            && Distinct(r.value)
            && (forall i :: 0 <= i < |items| ==>
                  && r.value[i] !in old(db.subjects)
                  && r.value[i] in db.subjects
                  && db.subjects[r.value[i]] == pass.value[i]))
    ensures r.Err? ==> db.subjects == old(db.subjects)
    ensures r.Ok? ==>
      && (forall k :: k in db.subjects <==> k in old(db.subjects) || k in r.value)
      && (forall k :: k in old(db.subjects) ==> db.subjects[k] == old(db.subjects)[k])
    ensures r.Ok? && NamesUnique(old(db.subjects)) ==> NamesUnique(db.subjects)
  {
    if |items| > BULK_LIMIT {
      return Err(BadRequest);
    }
    var checked := CheckAll(db.directions, db.subjects, caller, items);
    if checked.Err? {
      return Err(checked.error);
    }
    CheckedBatchIsFresh(db.directions, db.subjects, caller, items);
    ghost var before := db.subjects;
    var ids := InsertAll(db, checked.value);
    if NamesUnique(before) {
      InsertKeepsNamesUnique(before, db.subjects, ids, checked.value);
    }
    r := Ok(ids);
  }

  method UpdateSubject(db: Db, caller: Account, id: int, patch: SubjectPatch) returns (r: Result<Subject>)
    requires db.Valid()
    modifies db`subjects
    ensures db.Valid()
    ensures var v := RowAccess(caller, old(db.subjects), id, UniversityOfSubject);
      && (v.Refuse? ==> r == Err(v.status) && db.subjects == old(db.subjects))
      && (v.Proceed? ==>
            && r == Ok(PatchSubject(old(db.subjects)[id], patch))
            && db.subjects == old(db.subjects)[id := r.value])
    ensures r.Ok? ==> r.value.directionIds == old(db.subjects)[id].directionIds
  {
    var v := RowAccess(caller, db.subjects, id, UniversityOfSubject);
    if v.Refuse? {
      return Err(v.status);
    }
    var updated := PatchSubject(db.subjects[id], patch);
    db.subjects := db.subjects[id := updated];
    r := Ok(updated);
  }

  method DeleteSubject(db: Db, caller: Account, id: int) returns (r: Result<()>)
    requires db.Valid()
    modifies db`subjects
    ensures db.Valid()
    ensures var v := RowAccess(caller, old(db.subjects), id, UniversityOfSubject);
      && (v.Refuse? ==> r == Err(v.status) && db.subjects == old(db.subjects))
      && (v.Proceed? ==> r == Ok(()) && db.subjects == old(db.subjects) - {id})
  {
    var v := RowAccess(caller, db.subjects, id, UniversityOfSubject);
    if v.Refuse? {
      return Err(v.status);
    }
    db.subjects := db.subjects - {id};
    r := Ok(());
  }
}

=== FILE: university.dfy ===
/** The `/universities` router. Its guards come in a different order per handler:
    update checks role, then existence, then scope; delete checks role before existence. */
module UniversityRouter {
  import opened Common
  import opened Store
  import opened Policy

  function GetUniversity(universities: map<int, University>, id: int): (r: Result<University>)
    ensures r.Ok? <==> id in universities
    ensures r.Ok? ==> r.value == universities[id]
    ensures r.Err? ==> r.error == NotFound
  {
    if id in universities then Ok(universities[id]) else Err(NotFound)
  }

  /** Does a university other than `id` have this name? The name column is unique. */
  predicate NameHeldElsewhere(universities: map<int, University>, id: int, name: string) {
    exists k :: k in universities && k != id && universities[k].name == name
  }

  /** The unique constraint on the name column. */
  predicate NamesUnique(universities: map<int, University>) {
    forall a, b :: a in universities && b in universities && a != b ==> universities[a].name != universities[b].name
  }

  /** Only an owner creates (403); the payload's fields are stored as sent, and a name
      already in the table violates the unique column (500). */
  method CreateUniversity(db: Db, caller: Account, data: University) returns (r: Result<int>)
    requires db.Valid()
    modifies db`universities, db`nextId
    ensures db.Valid()
    ensures caller.CallerRole() != Owner ==> r == Err(Forbidden)
    ensures caller.CallerRole() == Owner && (exists k :: k in old(db.universities) && old(db.universities)[k].name == data.name)
      ==> r == Err(InternalError)
    ensures r.Ok? <==> caller.CallerRole() == Owner && !exists k :: k in old(db.universities) && old(db.universities)[k].name == data.name
    ensures r.Err? ==> db.universities == old(db.universities)
    ensures r.Ok? ==> r.value !in old(db.universities) && db.universities == old(db.universities)[r.value := data]
    ensures NamesUnique(old(db.universities)) ==> NamesUnique(db.universities)
  {
    if caller.CallerRole() != Owner {
      return Err(Forbidden);
    }
    if exists k :: k in db.universities && db.universities[k].name == data.name {
      return Err(InternalError);
    }
    var id := db.NewId();
    db.universities := db.universities[id := data];
    r := Ok(id);
  }

  /** 403 for a caller who is neither owner nor superadmin (before the lookup), then 404,
      then 403 for a superadmin whose university is not the target; a new name held by
      another university violates the unique column (500). */
  method UpdateUniversity(db: Db, caller: Account, id: int, patch: UniversityPatch) returns (r: Result<University>)
    requires db.Valid()
    modifies db`universities
    ensures db.Valid()
    ensures !IsAdminRole(caller.CallerRole()) ==> r == Err(Forbidden)
    ensures IsAdminRole(caller.CallerRole()) && id !in old(db.universities) ==> r == Err(NotFound)
    ensures var allowed := id in old(db.universities)
          && (caller.CallerRole() == Owner || (caller.CallerRole() == Superadmin && caller.CallerUniversity() == Some(id)));
      var clash := patch.name.Some? && NameHeldElsewhere(old(db.universities), id, patch.name.value);
      && (r.Ok? <==> allowed && !clash)
      && (allowed && clash ==> r == Err(InternalError))
      && (r.Err? && IsAdminRole(caller.CallerRole()) && id in old(db.universities) && !allowed ==> r.error == Forbidden)
    ensures r.Err? ==> db.universities == old(db.universities)
    ensures r.Ok? ==>
      && r.value == PatchUniversity(old(db.universities)[id], patch)
      && db.universities == old(db.universities)[id := r.value]
    ensures NamesUnique(old(db.universities)) ==> NamesUnique(db.universities)
  {
    if !IsAdminRole(caller.CallerRole()) {
      return Err(Forbidden);
    }
    if id !in db.universities {
      return Err(NotFound);
    }
    if caller.CallerRole() == Superadmin && caller.CallerUniversity() != Some(id) {
      return Err(Forbidden);
    }
    if patch.name.Some? && exists k :: k in db.universities && k != id && db.universities[k].name == patch.name.value {
      return Err(InternalError);
    }
    var updated := PatchUniversity(db.universities[id], patch);
    db.universities := db.universities[id := updated];
    r := Ok(updated);
  }

  /** Only an owner deletes: any other caller gets 403 even for an absent id; an owner
      gets 404 for an absent id. */
  method DeleteUniversity(db: Db, caller: Account, id: int) returns (r: Result<()>)
    requires db.Valid()
    modifies db`universities
    ensures db.Valid()
    ensures caller.CallerRole() != Owner ==> r == Err(Forbidden)
    ensures caller.CallerRole() == Owner && id !in old(db.universities) ==> r == Err(NotFound)
    ensures r.Ok? <==> caller.CallerRole() == Owner && id in old(db.universities)
    ensures r.Err? ==> db.universities == old(db.universities)
    ensures r.Ok? ==> db.universities == old(db.universities) - {id}
  {
    if caller.CallerRole() != Owner {
      return Err(Forbidden);
    }
    if id !in db.universities {
      return Err(NotFound);
    }
    db.universities := db.universities - {id};
    r := Ok(());
  }
}

=== FILE: user.dfy ===
/** The `/users` router: a caller edits their own name. */
module UserRouter {
  import opened Common
  import opened Store
  import opened Dependencies

  /** `PUT /users/me`: any of the three known roles passes (403 otherwise). Both names are
      overwritten with what was sent, an omitted name becoming null. For a user account
      the row is written; an admin row has no name columns, so nothing is stored. The
      `email` and `password` fields of the payload are ignored. The caller is the row the
      session lookup loaded. */
  method UpdateMe(db: Db, caller: Account, firstName: Option<string>, lastName: Option<string>) returns (r: Result<()>)
    requires caller.UserAccount? ==> caller.id in db.users && db.users[caller.id] == caller.user
    requires db.Valid()
    modifies db`users
    ensures db.Valid()
    ensures r.Ok? <==> !caller.CallerRole().Other?
    ensures r.Err? ==> r.error == Forbidden
    ensures r.Ok? && caller.UserAccount? ==>
      db.users == old(db.users)[caller.id := old(db.users)[caller.id].(firstName := firstName, lastName := lastName)]
    ensures r.Err? || caller.AdminAccount? ==> db.users == old(db.users)
  {
    var guard := RequireRole(caller, USER_ROLES);
    RequireUserAdmitsKnownRoles(caller);
    if guard.Err? {
      return Err(guard.error);
    }
    if caller.UserAccount? {
      db.users := db.users[caller.id := caller.user.(firstName := firstName, lastName := lastName)];
    }
    r := Ok(());
  }
}
